=== FILE: README.md ===
# Bulk-load connector commands: a Dafny model

This project models the local rules of the `td connector:*` commands.
These commands drive remote bulk-load ("connector") sessions: guess a
configuration from a partial one, preview it, issue a one-off load, and
list sessions and their job history. All of them live in
`lib/td/command/connector.rb`. The remote service is reached only through
opaque client calls, so the model keeps what the command does locally:

- **Configuration resolution** (`ConfigResolver`). `required`, the
  existence check and `config` unwrap of `prepare_bulkload_job_config`, and
  the `out`-section merge of `overwrite_out_config`. The document is a JSON
  tree (`JsonDoc.Json`) whose objects are insertion-ordered key/value
  sequences with Ruby `Hash` semantics (`OrderedMap`). Ruby truthiness is
  kept: only nil and false are false.
- **Output persistence** (`OutputWriter`). The local file system is a
  class `FileSystem` with a `map<string, string>` field. The backup
  rotation `create_bulkload_job_file_backup` moves an existing output to the
  least free `out.N`, N in 0..100. Also here: the JSON-or-YAML choice by the
  `.json` suffix.
- **`connector:guess`** (`GuessCommand`). Option defaults, the legacy
  `required` chain and its rescue, the legacy configuration built from the
  S3 flags (`S3Path` holds the bucket/prefix split), and the whole command
  as a method on the file system.
- **`connector:issue`** (`IssueCommand`). Argument selection, the merge of
  `--database`/`--table`/`--time-column` into `out`, and the two `required`
  checks that guard the remote call.
- **`connector:preview`** (`Preview`). Columns sorted by `index`, labels
  `name:type`, and rows zipped by position with the sorted labels. The row
  loop is a method.
- **`connector:list` and `connector:history`** (`Listing`). Sessions sorted
  by name (`Sorting` supplies a `sort_by`) and projected onto seven
  capitalised columns. Job runs become rows with a duration.
- **Obsolete-option warnings** (`ObsoleteOptions`). The option words of an
  option declaration, collected in a loop, and the "is"/"are" choice.

Foreign code is passed in as function parameters:

- the YAML/JSON reader of a configuration file;
- `URI.parse`;
- the remote guess;
- the JSON and YAML dumpers;
- the clock (`now`).

In a few places the code does something other than what a reader of the
command's help text or of its names might expect. The model follows the
code:

- An empty-string override is written into `out`. Ruby's `""` is true, so
  `config['out'][key] = value if value` assigns it
  (`ConfigResolver.EmptyStringOverrides`).
- The merge is not a no-op without overrides when `out` is missing or
  false: `config['out'] ||= {}` adds an empty `out`
  (`ConfigResolver.MergeOutCreatesOut`).
- The preview zips record position idx with the idx-th column *after*
  sorting by `index`. A record `[v2, v0, v1]` against columns c(2), a(0),
  b(1) renders as a:v2, b:v0, c:v1 (`Preview.PositionalZip`). It does not
  re-order the record by each column's index.
- In `connector_guess`, `out ||= config_file` never takes effect, because
  `out` starts as `'td-bulkload.yml'` and `-o` always supplies a string. The
  guessed configuration goes to `-o` or `td-bulkload.yml`, never to the
  configuration file's own name (`GuessCommand.GuessRequest`). For the same
  reason the legacy check never reports `--out`
  (`GuessCommand.LegacyNeverMissingOut`).

## Model

| member | source | states |
|---|---|---|
| OrderedMap.Get | lib/td/command/connector.rb:328 | A Hash lookup finds nothing exactly when the key is absent; otherwise it returns the value of a stored pair with that key. |
| OrderedMap.Put | lib/td/command/connector.rb:177 | After `h[k] = v` the key k maps to v. |
| OrderedMap.PutKeys | lib/td/command/connector.rb:177 | Assigning an existing key keeps the key order; a new key is appended at the end. |
| OrderedMap.PutOther | lib/td/command/connector.rb:177 | Assigning one key leaves every other key's value unchanged. |
| OrderedMap.GetAt | lib/td/command/connector.rb:328 | In a Hash with distinct keys, each stored pair is what a lookup of its key returns. |
| OrderedMap.PutExisting | lib/td/command/connector.rb:177 | Assigning a key the value it already holds leaves the Hash unchanged. |
| OrderedMap.PutDistinct | lib/td/command/connector.rb:177 | Assignment keeps the keys of a Hash distinct. |
| JsonDoc.Lookup | lib/td/command/connector.rb:328 | `doc[k]` on a Hash is the stored value of k, or nil when k is absent. |
| JsonDoc.OptStr | lib/td/command/connector.rb:138 | An optional option value becomes a Ruby value that is true exactly when the option was given, and then is that string. |
| ConfigResolver.Required | lib/td/command/connector.rb:10-14 | `required` fails exactly on nil (false passes), naming the option; otherwise it passes the value through. |
| ConfigResolver.RequiredAll | lib/td/command/connector.rb:33-36 | A chain of `required` calls succeeds exactly when no value is nil; otherwise it fails naming the first nil one. |
| ConfigResolver.Without | lib/td/command/connector.rb:330 | `keys - ['config']` holds exactly the keys other than `config`. |
| ConfigResolver.WithoutDistinct | lib/td/command/connector.rb:330 | With distinct keys, removing `config` leaves the other keys in their original order. |
| ConfigResolver.WithoutAbsent | lib/td/command/connector.rb:330 | Removing a key that is not present changes nothing. |
| ConfigResolver.PrepareConfig | lib/td/command/connector.rb:312-335 | A missing file gives "not found", a file neither reader accepts gives the "configuration file" error with the reader's reason, and a nil path fails. A readable file's parsed document goes through the unwrap. Success implies the file exists. |
| ConfigResolver.Unwrap | lib/td/command/connector.rb:328-334 | A Hash without a true `config` passes unchanged. A lone true `config` is replaced by its value. A true `config` beside other keys fails, naming exactly the other keys. Non-Hash, non-String documents fail. `UnwrapOnlyConfig`, `UnwrapSiblings` and `UnwrapUnwrapped` state the cases on their own. |
| ConfigResolver.UnwrapOnlyConfig | lib/td/command/connector.rb:328-334 | A document whose only key is a true `config` resolves to that value. |
| ConfigResolver.UnwrapSiblings | lib/td/command/connector.rb:328-331 | A true `config` beside other keys fails, listing exactly the other keys, in key order. |
| ConfigResolver.UnwrapUnwrapped | lib/td/command/connector.rb:328-334 | A Hash without a true `config` is returned unchanged. |
| ConfigResolver.OverwriteOutConfig | lib/td/command/connector.rb:172-179 | The in-place loop computes the same document as the merge function `MergeOut`. |
| ConfigResolver.ApplyOverrides | lib/td/command/connector.rb:176-178 | The override loop assigns nothing when no override is true. `ApplyOverridesGet` gives the value of every key afterwards. |
| ConfigResolver.ApplyOverridesGet | lib/td/command/connector.rb:176-178 | After the override loop, each key holds its last true override, or else its earlier value (or stays absent). |
| ConfigResolver.ApplyOverridesDistinct | lib/td/command/connector.rb:176-178 | The override loop keeps the keys of `out` distinct. |
| ConfigResolver.OutEnsured | lib/td/command/connector.rb:174 | After `out` is defaulted to `{}`, it is true. A true `out` is kept as it was, and a nil, false or missing one becomes `{}`. |
| ConfigResolver.OutEnsuredKeys | lib/td/command/connector.rb:174 | `config['out'] ||= {}` keeps the key order and leaves an `out` key, appended at the end if it was missing. |
| ConfigResolver.MergeOut | lib/td/command/connector.rb:172-179 | The merge fails exactly when the document is not a Hash, or when its `out` is true but not a Hash and some override is true. The only error is a type error. A successful merge is a Hash with a true `out`. `MergeOutSpec` and `MergeOutKey` give its contents. |
| ConfigResolver.MergeOutSpec | lib/td/command/connector.rb:172-179 | On a Hash whose `out` is a Hash, nil, false or missing, the merge succeeds. `out` then exists and is the old section (or `{}`) with every true override applied. Every other top-level key is unchanged, and `out` is appended only if it was not there. |
| ConfigResolver.MergeOutKey | lib/td/command/connector.rb:172-179 | Each `out` key of the merged document is its last true override, or else its value before the merge. |
| ConfigResolver.MergeOutNoOverrides | lib/td/command/connector.rb:172-179 | With an existing `out` Hash and no true override, the merge changes nothing. |
| ConfigResolver.NoTruthyApply | lib/td/command/connector.rb:176-178 | A loop over nil/false overrides assigns nothing. |
| ConfigResolver.MergeOutCreatesOut | lib/td/command/connector.rb:174 | Without `out` and without true overrides, the merge still appends `out: {}`. |
| ConfigResolver.PutAppends | lib/td/command/connector.rb:174 | Assigning a new key appends it at the end. |
| ConfigResolver.EmptyStringOverrides | lib/td/command/connector.rb:177 | An empty-string override replaces the previous value. |
| ConfigResolver.NilOverrideKeeps | lib/td/command/connector.rb:177 | A nil override keeps the previous value. |
| OutputWriter.NatToString | lib/td/command/connector.rb:340 | `idx.to_s` is a non-empty string of decimal digits with no leading zero (except `0` itself). |
| OutputWriter.NatToStringValue | lib/td/command/connector.rb:340 | The digits `idx.to_s` writes denote idx. |
| OutputWriter.BackupName | lib/td/command/connector.rb:340 | A backup name is the output path, a dot, and more characters. |
| OutputWriter.BackupNameIsOther | lib/td/command/connector.rb:340 | A backup name never equals the file it backs up. |
| OutputWriter.BackupNameInjective | lib/td/command/connector.rb:339-340 | Distinct indices give distinct backup names, so `0.upto(100)` probes 101 different files. |
| OutputWriter.FreeSlotFrom | lib/td/command/connector.rb:339-345 | The search from a start index finds the least free backup index up to 100, or reports that all are taken. |
| OutputWriter.FreeSlotLeast | lib/td/command/connector.rb:339-345 | A free index with every earlier index taken is exactly the slot the backup search stops at. |
| OutputWriter.FreeSlot | lib/td/command/connector.rb:339-345 | `0.upto(100)` stops at the least index whose backup name is free; none is found only if all 101 are taken. |
| OutputWriter.Rotate | lib/td/command/connector.rb:337-347 | The backup step fails exactly when the output exists and `out.0` .. `out.100` are all taken. After a successful step the output path is free, and every other existing file keeps its content. `RotateMoves` says where the old content goes. |
| OutputWriter.RotateAbsent | lib/td/command/connector.rb:338 | Without an existing output, the backup step changes nothing. |
| OutputWriter.RotateMoves | lib/td/command/connector.rb:339-345 | An existing output moves to `out.N` for the least free N. `out` is then gone and every other file (including `out.0`..`out.N-1`) is untouched. |
| OutputWriter.RotateExhausted | lib/td/command/connector.rb:339-346 | With `out.0`..`out.100` all present, the backup step fails. By `BackupNameInjective`, these are 101 distinct files. |
| OutputWriter.OutputFormat | lib/td/command/connector.rb:67-71 | The guessed configuration is JSON exactly when the path ends in `.json`, otherwise YAML. |
| OutputWriter.OutputFormatExamples | lib/td/command/connector.rb:67-71 | `x.json` is JSON; `td-bulkload.yml` and `x.json.0` are YAML. |
| OutputWriter.Persisted | lib/td/command/connector.rb:66-74 | Nothing is written exactly when the backup fails. After a successful backup-then-write, the output path holds the new content. |
| OutputWriter.TwoWrites | lib/td/command/connector.rb:66-74 | Two guesses over an existing X leave X at `out.0`, the first guess at `out.1`, and the second at `out`. |
| OutputWriter.FileSystem.CreateBackup | lib/td/command/connector.rb:337-347 | The loop succeeds exactly when a rotation exists and then leaves that rotation's file system; on failure it reports the error and changes nothing. |
| OutputWriter.FileSystem.Write | lib/td/command/connector.rb:72-74 | Writing replaces exactly the content at the path. |
| OutputWriter.FileSystem.WriteWithBackup | lib/td/command/connector.rb:66-74 | Backup then write: the new state is the persisted one, and nothing is written when the backup fails. |
| Sorting.Insert | lib/td/command/connector.rb:91-93 | Inserting into a sorted sequence keeps it sorted and adds exactly that element. |
| Sorting.SortBy | lib/td/command/connector.rb:91-93 | `sort_by` returns a permutation of its input whose keys never decrease. |
| Preview.IndexLeIsPreorder | lib/td/command/connector.rb:91-93 | Comparing columns by `index` is a total preorder. |
| Preview.SortedColumns | lib/td/command/connector.rb:91-93 | The columns are a permutation of the schema, sorted by non-decreasing `index`. |
| Wrappers.ElementAt | lib/td/command/connector.rb:99 | `fields[idx]` is the idx-th label, or nil past the end; the same Array indexing gives nil for a missing positional argument. |
| Preview.RowOf | lib/td/command/connector.rb:96-101 | The last assignment wins: the label of the last record position holds that position's value, so a later position with the same `name:type` overwrites an earlier one. `RowOfKeys` gives the row's keys. With distinct labels, `RowOfAligned` gives the value under every label that a position reaches, including for records longer than the labels. |
| Preview.BuildRow | lib/td/command/connector.rb:97-101 | The `each_with_index` loop builds the row that the positional assignments define. |
| Preview.PreviewTable | lib/td/command/connector.rb:94-102 | One label per column, `name:type` of the idx-th sorted column; one row per record, built against those labels. |
| Preview.RowOfLabelKeys | lib/td/command/connector.rb:96-102 | A label is a key of the row exactly when the record reaches one of the positions that carry it. |
| Preview.RowOfNilKey | lib/td/command/connector.rb:96-102 | The nil key is in the row exactly when the record is longer than the label list. |
| Preview.RowOfKeys | lib/td/command/connector.rb:96-102 | A row has a key exactly for the labels of the positions its record reaches, plus the nil key when the record is longer than the label list. |
| Preview.RowOfAligned | lib/td/command/connector.rb:98-100 | With distinct labels, element idx is stored under label idx for every idx that has a label. Elements past the labels go to the nil key and disturb none of them. |
| Preview.PreviewAligned | lib/td/command/connector.rb:91-102 | With distinct `name:type` labels, each element of every rendered row that has a column sits under `name:type` of the idx-th column by `index`. |
| Preview.SortExample | lib/td/command/connector.rb:91-93 | Columns c(2), a(0), b(1) are sorted to a, b, c. |
| Preview.PositionalZip | lib/td/command/connector.rb:98-100 | Against labels a, b, c the record [v2, v0, v1] renders as a:v2, b:v0, c:v1. |
| Listing.CapitalizeLower | lib/td/command/connector.rb:188 | A lower-case key is capitalised by upcasing its first letter. |
| Listing.DowncaseLower | lib/td/command/connector.rb:188 | Downcasing lower-case text changes nothing. |
| Listing.ListFieldsNamed | lib/td/command/connector.rb:187-188 | The list columns are Name, Cron, Timezone, Delay, Database, Table, Config. |
| Listing.CapitalizeKey | lib/td/command/connector.rb:188 | Each column name is the capitalised session key. |
| Listing.LexLeTotal | lib/td/command/connector.rb:189-191 | Any two names compare. |
| Listing.LexLeTransitive | lib/td/command/connector.rb:189-191 | Name comparison chains. |
| Listing.NameLeIsPreorder | lib/td/command/connector.rb:189-191 | Ordering sessions by name is a total preorder. |
| Listing.Project | lib/td/command/connector.rb:192 | A projected row has the seven columns in order; each holds the session's value for its key, nil when missing. |
| Listing.ProjectName | lib/td/command/connector.rb:192 | A projected row starts with `Name` and the session's name. |
| Listing.SortedSessions | lib/td/command/connector.rb:189-191 | The sessions are permuted into non-decreasing name order. |
| Listing.ListRows | lib/td/command/connector.rb:189-193 | One row per session: the projection of the i-th session by name. |
| Listing.SortedStaysNamed | lib/td/command/connector.rb:189-191 | Sorting keeps every session's name a string. |
| Listing.ListRowsFromSessions | lib/td/command/connector.rb:189-193 | Every listed row is the projection of one of the listed sessions. |
| Listing.ListRowsOrdered | lib/td/command/connector.rb:189-193 | The rows' `Name` columns are the sorted names, in non-decreasing order. |
| Listing.Duration | lib/td/command/connector.rb:273 | Start time plus duration is the end time, or `now` for a running job. |
| Listing.DurationClock | lib/td/command/connector.rb:273 | A finished run's duration does not depend on the clock; a running one's grows with it. |
| Listing.DurationExamples | lib/td/command/connector.rb:273 | Started at 100: at 200 still running gives 100, ended at 150 gives 50. |
| Listing.HistoryRow | lib/td/command/connector.rb:264-274 | A history row has the eight columns in order and ends with the duration. |
| Listing.HistoryRows | lib/td/command/connector.rb:263-275 | One history row per job run, in the service's order. |
| ObsoleteOptions.WordLength | lib/td/command/connector.rb:161 | The leading word is non-empty when the text starts with a non-separator, and it ends at a separator or at the end of the text. |
| ObsoleteOptions.Words | lib/td/command/connector.rb:161 | `split(" ")` yields at most one word per character. `WordsDecompose` and `WordsSkipSpace` fix the word boundaries, and `WordShape` and `WordsCover` give the words' shape and contents. |
| ObsoleteOptions.WordsDecompose | lib/td/command/connector.rb:161 | A separator-free word followed by a separator or by the end is split off whole, and the rest is split on its own. |
| ObsoleteOptions.WordsSkipSpace | lib/td/command/connector.rb:161 | Leading separators produce no word. |
| ObsoleteOptions.WordNoSpace | lib/td/command/connector.rb:161 | The leading word holds no separator, so it is the longest such prefix. |
| ObsoleteOptions.WordShape | lib/td/command/connector.rb:161 | Every word `split(" ")` yields is non-empty and free of separators. |
| ObsoleteOptions.WordsCover | lib/td/command/connector.rb:161 | The words put together are the text without its separators. |
| ObsoleteOptions.UnspacedAppend | lib/td/command/connector.rb:161 | Removing separators distributes over concatenation. |
| ObsoleteOptions.UnspacedWord | lib/td/command/connector.rb:161 | A word without separators is unchanged by their removal. |
| ObsoleteOptions.UnspacedTake | lib/td/command/connector.rb:161 | Without its separators, a text is its leading word followed by the rest without separators. |
| ObsoleteOptions.CollectOptionWords | lib/td/command/connector.rb:160-164 | The `each_with_object` loop collects exactly the option words of the arguments, in order. |
| ObsoleteOptions.OptionsIn | lib/td/command/connector.rb:161-163 | Only words that start with `-` are collected, and no more than there are words. |
| ObsoleteOptions.OptionWords | lib/td/command/connector.rb:160-164 | Every collected option starts with `-`. `OptionWordsMembers` says which options are collected, and `OptionWordsFilter` gives their order. |
| ObsoleteOptions.OptionsInMembers | lib/td/command/connector.rb:162 | A word is kept exactly when it starts with `-`. |
| ObsoleteOptions.OptionsInAppend | lib/td/command/connector.rb:160-164 | Filtering the words of two parts is filtering each part in turn. |
| ObsoleteOptions.OptionWordsFilter | lib/td/command/connector.rb:160-164 | The collected options are the `-` words among all words of all arguments, in order. |
| ObsoleteOptions.OptionWordsMembers | lib/td/command/connector.rb:160-164 | A string is reported exactly when it starts with `-` and is a word of some argument. |
| ObsoleteOptions.Verb | lib/td/command/connector.rb:167 | The warning says "are" exactly for more than one option, otherwise "is". |
| S3Path.RunLength | lib/td/command/connector.rb:49 | The run of non-slashes ends at a slash or at the end of the text. |
| S3Path.RunNoSlash | lib/td/command/connector.rb:49 | The run holds no slash. |
| S3Path.SegmentEnd | lib/td/command/connector.rb:49 | The segment a path starts with is non-empty, fits in the path, and is followed by a slash or by the end. |
| S3Path.Segments | lib/td/command/connector.rb:49 | `scan` yields at most one segment per character. `SegmentsEmpty`, `SegmentShape` and `SegmentsCover` characterise the segments. |
| S3Path.SegmentsEmpty | lib/td/command/connector.rb:49 | The scan finds no segment exactly when the path holds no slash. |
| S3Path.SegmentShape | lib/td/command/connector.rb:49 | Every scanned segment is a slash followed by non-slashes. |
| S3Path.SubFirstSlash | lib/td/command/connector.rb:50-51 | `sub(/\//, '')` changes nothing without a slash, removes the leading slash when the text starts with one, and otherwise removes one slash. `SubFirstSlashAt` says which one. |
| S3Path.SubFirstSlashAt | lib/td/command/connector.rb:50-51 | The slash removed is the first one (`RunLength` ends at it, and `RunNoSlash` shows none comes before it); the text before it and the text after it are kept. |
| S3Path.SegmentsSkip | lib/td/command/connector.rb:49 | Characters before the first slash belong to no segment. |
| S3Path.SegmentsCover | lib/td/command/connector.rb:49-51 | The segments of a path starting with a slash, joined, give back the path. |
| S3Path.SplitS3 | lib/td/command/connector.rb:49-51 | The split fails exactly when the path holds no slash (`shift` gives nil), and then with a type error. A bucket never holds a slash. `SplitS3Spec` gives bucket and prefix. |
| S3Path.SplitS3NoSlash | lib/td/command/connector.rb:49-50 | A path without a slash has no bucket, and `shift.sub` fails. |
| S3Path.SplitS3Spec | lib/td/command/connector.rb:49-51 | For a path starting with `/`, the bucket is the text up to the next slash; the prefix is everything after that slash, or "" when there is none. |
| S3Path.SplitS3Skip | lib/td/command/connector.rb:49-51 | Text before the first slash does not change the split. |
| S3Path.SplitS3Example | lib/td/command/connector.rb:49-51 | `/b/x/y` splits into bucket `b` and prefix `x/y`. |
| S3Path.SplitS3BucketOnly | lib/td/command/connector.rb:49-51 | `/b` and `/b/` give bucket `b` and an empty prefix. |
| GuessCommand.LegacyCheck | lib/td/command/connector.rb:32-45 | Without a configuration file, the first missing option in the order access id, secret, source, out is reported. If id, secret and source are all missing, "path to configuration file is required" is reported instead. It passes exactly when all four are given. |
| GuessCommand.LegacyConfig | lib/td/command/connector.rb:47-60 | A failing check gives that check's error. After a passing check: an unparsable URI fails as invalid, and a URI without a path fails with a type error. With a path, the configuration is built exactly when the path holds a slash. It then carries the credentials, the URI host as endpoint, and the S3 bucket and prefix of the path. |
| GuessCommand.GuessRequest | lib/td/command/connector.rb:27-61 | With a file, the request is the prepared file's configuration; without one, it is the legacy configuration. Errors pass through, and the output path is always the `-o` value. |
| GuessCommand.Serialize | lib/td/command/connector.rb:67-71 | The guessed configuration is dumped as JSON for a `.json` path and as YAML otherwise. |
| GuessCommand.ConnectorGuess | lib/td/command/connector.rb:63-74 | An invalid request fails without touching the file system. Otherwise the guessed configuration, serialised by suffix, is written after the backup, and the output path is returned; a failed backup leaves the file system unchanged. |
| GuessCommand.GuessNeedsSomething | lib/td/command/connector.rb:38-41 | No file and no source settings: the error asks for the configuration file. |
| GuessCommand.GuessWithoutArguments | lib/td/command/connector.rb:17-19 | `connector:guess` with no configuration file and no options starts from type `s3`, output `td-bulkload.yml` and nil source settings, and asks for the configuration file. |
| GuessCommand.LegacyNeverMissingOut | lib/td/command/connector.rb:19-36 | The legacy path never reports `--out`, since the output path always holds a string. |
| GuessCommand.LegacyS3Example | lib/td/command/connector.rb:47-60 | A source with host `h` and path `/b/x/y` yields endpoint `h`, bucket `b` and prefix `x/y`. |
| IssueCommand.SelectArgs | lib/td/command/connector.rb:129-135 | A single String is the configuration file, with database and table from the options; otherwise the three positional arguments are used in order. |
| IssueCommand.Index | lib/td/command/connector.rb:142-143 | `config['out'][k]` is a lookup when `out` is a Hash and raises for non-String, non-Hash values. |
| IssueCommand.Merged | lib/td/command/connector.rb:137-138 | An error reading the file passes through unchanged. A merged configuration is a Hash with a true `out`. `MergeOutSpec` and `IssueOptionsWin` give its contents. |
| IssueCommand.IssueWith | lib/td/command/connector.rb:142-149 | The issue call is reached only with non-nil `out.database` and `out.table` of the configuration, read as `config['out'][k]`. It carries that configuration and the auto-create flag. |
| IssueCommand.Issue | lib/td/command/connector.rb:137-149 | Errors from reading and merging the configuration pass through unchanged; otherwise the merged configuration decides, through the database-then-table checks. |
| IssueCommand.IssueRequires | lib/td/command/connector.rb:142-149 | With an `out` Hash, the job is issued exactly when database and table are both non-nil; otherwise `database` is reported first, then `table`. |
| IssueCommand.IssueOverridesLast | lib/td/command/connector.rb:138 | The database and table overrides are the given option values, and absent when not given. |
| IssueCommand.OutField | lib/td/command/connector.rb:142-143 | Reading a key of the merged `out` Hash yields the value the merge left there. |
| IssueCommand.IssueOptionsWin | lib/td/command/connector.rb:129-149 | Database and table given on the command line override the file, and the job is issued for exactly them. |
| IssueCommand.IssueWithoutDatabase | lib/td/command/connector.rb:137-149 | A file without `out` and no options: the command stops at `required('database')` and nothing is issued. |

## Left out

- Parsing: `file_type`, the YAML and JSON readers and their error messages (lines 298-310 and 319-326) are one parameter that yields a document or a failure reason. `URI.parse`, `JSON.pretty_generate` and `YAML.dump` are parameters too.
- The remote client calls are not modelled, since they are opaque calls into the service. This covers `bulk_load_guess/preview/issue/list/create/show/update/delete/history/run`, `get_client`, `get_table`, `create_database_and_table_if_not_exist` and `wait_connector_job`. The guess result enters as a parameter, and the preview, list and history responses enter as inputs. `connector_show`, `connector_update`, `connector_delete` and `connector_run` add nothing local beyond `prepare_bulkload_job_config`, which is modelled.
- `connector_create` (lines 198-227): the option hash it sends is not modelled. That hash has `timezone` defaulting to `'UTC'`, plus `time_column`, `delay` and `cron`, and is merged with `config:`. Its configuration file goes through `prepare_bulkload_job_config`, which is modelled; the assembly itself is one literal Hash handed to the remote call.
- Printing, table rendering, `dump_connector_session`, usage text and the option-parser wiring are out. Because of this, the warning text of `on_with_obsolute_and_overwrite_config_warning` is not built; its option words and verb are.
- Preview.PreviewTable: cells hold the record values themselves, not their `inspect` strings. The unused `types` list (line 95) is not built.
- Listing.HistoryRow: `Started` stays the epoch second that `Time.at` would render. A run whose `database` or `table` is not a Hash shows nil instead of raising.
- Listing.SortedSessions: requires every session name to be a String. Ruby's `sort_by` also accepts all-nil names, and raises for names that do not compare; neither case is represented.
- Sorting.SortBy: keeps equal keys in input order. Ruby's `sort_by` leaves their order unspecified, so the model fixes one of the allowed orders.
- ConfigResolver.MergeOut: a document that is not a Hash always fails. So does a Hash whose `out` is a String, once an override is true. Ruby instead applies `String#[]=` in both places (line 177). It replaces the first occurrence of the key in the string with the value, so `{"out": "my database"}` with `--database db` becomes `"my db"`. When the key does not occur, it raises IndexError. This substring assignment is not modelled.
- ConfigResolver.Unwrap: a String document fails when it contains `config`, where Ruby raises while building its message. Other String documents pass unchanged; Arrays, numbers, booleans and nil fail.
- ConfigResolver.OverwriteOutConfig: returns the updated document as a value. The in-place mutation of the caller's Hash, and any aliasing through it, are not captured.
- ConfigResolver.UnwrapSiblings: assumes distinct keys, as a parsed JSON object has.
- JSON numbers are kept as integers or an opaque float; no arithmetic is done on them.


=== FILE: config_resolver.dfy ===
/**
 * Turning a configuration file and command-line overrides into the one
 * configuration document a connector command sends: `required`,
 * `prepare_bulkload_job_config` and `overwrite_out_config`.
 */
module ConfigResolver {
  import opened Wrappers
  import opened OrderedMap
  import opened JsonDoc

  /** What the YAML-then-JSON reading of a file's text yields. */
  datatype ParseOutcome = Parsed(doc: Json) | Unparsable(reason: string)

  /** An override set: option keys with a Ruby value each (nil as Null). */
  type Overrides = seq<(string, Json)>

  /** `required(opt, value)`: only nil is refused (false passes). */
  function Required(opt: string, value: Json): (r: Result<Json>)
    ensures r.Ok? <==> value != Null
    ensures r.Ok? ==> r.value == value
    ensures r.Err? ==> r.error == MissingOption(opt)
  {
    if value == Null then Err(MissingOption(opt)) else Ok(value)
  }

  /** Entry i is the first of the checks whose value is nil. */
  predicate FirstNullAt(checks: seq<(string, Json)>, i: int)
  {
    0 <= i < |checks| && checks[i].1 == Null && forall j :: 0 <= j < i ==> checks[j].1 != Null
  }

  /** Consecutive `required` calls: the first nil value raises, naming its option. */
  function RequiredAll(checks: seq<(string, Json)>): (r: Result<()>)
    ensures r.Ok? <==> forall i :: 0 <= i < |checks| ==> checks[i].1 != Null
    ensures r.Err? ==> exists i :: FirstNullAt(checks, i) && r.error == MissingOption(checks[i].0)
  {
    if checks == [] then Ok(())
    else
      match Required(checks[0].0, checks[0].1)
      case Err(e) => Err(e)
      case Ok(_) =>
        var r := RequiredAll(checks[1..]);
        assert r.Err? ==> exists i :: FirstNullAt(checks, i) && r.error == MissingOption(checks[i].0) by {
          if r.Err? {
            var i :| FirstNullAt(checks[1..], i) && r.error == MissingOption(checks[1..][i].0);
            assert forall j :: 1 <= j < i + 1 ==> checks[j] == checks[1..][j - 1];
            assert FirstNullAt(checks, i + 1);
          }
        }
        r
  }

  /** `ks - [x]`: every occurrence of x removed, order kept. */
  function Without(ks: seq<string>, x: string): (r: seq<string>)
    ensures forall y :: y in r <==> y in ks && y != x
    ensures |r| <= |ks|
  {
    if ks == [] then []
    else if ks[0] == x then Without(ks[1..], x)
    else [ks[0]] + Without(ks[1..], x)
  }

  /**
   * The unwrap step of `prepare_bulkload_job_config`: a payload wrapped under
   * a true `config` key is taken out of it, provided nothing sits beside it.
   * A document that is not a Hash fails where Ruby's `[]` would raise; a
   * string answers `['config']` with a substring match.
   */
  function Unwrap(doc: Json): (r: Result<Json>)
    ensures r.Ok? ==> r.value == doc || (doc.Obj? && |doc.entries| == 1 && r.value == Lookup(doc, "config"))
    ensures doc.Obj? && !Truthy(Lookup(doc, "config")) ==> r == Ok(doc)
    ensures doc.Obj? && Truthy(Lookup(doc, "config")) && |doc.entries| == 1 ==> r == Ok(Lookup(doc, "config"))
    ensures doc.Obj? && Truthy(Lookup(doc, "config")) && |doc.entries| != 1 ==>
              r.Err? && r.error.UnsupportedKeys?
              && forall k :: k in r.error.keys <==> k in Keys(doc.entries) && k != "config"
    ensures !doc.Obj? && !doc.Str? ==> r == Err(WrongType)
  {
    match doc
    case Obj(top) =>
      var inner := Lookup(doc, "config");
      if Truthy(inner) then
        if |top| != 1 then Err(UnsupportedKeys(Without(Keys(top), "config")))
        else Ok(inner)
      else Ok(doc)
    case Str(s) => if Contains(s, "config") then Err(WrongType) else Ok(doc)
    case _ => Err(WrongType)
  }

  /** `prepare_bulkload_job_config(path)` over a snapshot of the file system; `parse` is the YAML/JSON reader. */
  function PrepareConfig(files: map<string, string>, path: Option<string>, parse: string -> ParseOutcome): (r: Result<Json>)
    ensures r.Ok? ==> path.Some? && path.value in files
    ensures path.Some? && path.value !in files ==> r == Err(ConfigNotFound(path.value))
    ensures path.Some? && path.value in files && parse(files[path.value]).Parsed? ==>
              r == Unwrap(parse(files[path.value]).doc)
    ensures path.Some? && path.value in files && parse(files[path.value]).Unparsable? ==>
              r == Err(ConfigUnparsable(path.value, parse(files[path.value]).reason))
    ensures path.None? ==> r == Err(WrongType)
  {
    match path
    case None => Err(WrongType)
    case Some(p) =>
      if p !in files then Err(ConfigNotFound(p))
      else
        match parse(files[p])
        case Unparsable(reason) => Err(ConfigUnparsable(p, reason))
        case Parsed(doc) => Unwrap(doc)
  }

  /** Some override in the set would be written. */
  predicate AnyTruthy(ov: Overrides)
  {
    exists i :: 0 <= i < |ov| && Truthy(ov[i].1)
  }

  /** The value the last true override for key k carries, if any does. */
  function LastTruthy(ov: Overrides, k: string): (r: Option<Json>)
    ensures r.Some? ==> Truthy(r.value)
  {
    if ov == [] then None
    else if ov[|ov| - 1].0 == k && Truthy(ov[|ov| - 1].1) then Some(ov[|ov| - 1].1)
    else LastTruthy(ov[..|ov| - 1], k)
  }

  /** The `each` loop of `overwrite_out_config`, one assignment per true override. */
  function ApplyOverrides(out: Entries<string, Json>, ov: Overrides): (r: Entries<string, Json>)
    ensures !AnyTruthy(ov) ==> r == out
  {
    if ov == [] then out
    else if Truthy(ov[|ov| - 1].1) then Put(ApplyOverrides(out, ov[..|ov| - 1]), ov[|ov| - 1].0, ov[|ov| - 1].1)
    else ApplyOverrides(out, ov[..|ov| - 1])
  }

  /** `config['out'] ||= {}`: a false or missing `out` becomes an empty Hash. */
  function OutEnsured(top: Entries<string, Json>): (r: Entries<string, Json>)
    ensures Truthy(Lookup(Obj(r), "out"))
    ensures Truthy(Lookup(Obj(top), "out")) ==> r == top
    ensures !Truthy(Lookup(Obj(top), "out")) ==> Lookup(Obj(r), "out") == Obj([])
  {
    if Truthy(Lookup(Obj(top), "out")) then top else Put(top, "out", Obj([]))
  }

  /**
   * `overwrite_out_config(config, overrides)` as a value: `config['out'] ||= {}`,
   * then every true override assigned into `config['out']`.
   */
  function MergeOut(doc: Json, ov: Overrides): (r: Result<Json>)
    ensures r.Err? <==> !doc.Obj? || (AnyTruthy(ov) && Truthy(Lookup(doc, "out")) && !Lookup(doc, "out").Obj?)
    ensures r.Err? ==> r.error == WrongType
    ensures r.Ok? ==> r.value.Obj? && Truthy(Lookup(r.value, "out"))
  {
    match doc
    case Obj(top) =>
      (match Lookup(Obj(OutEnsured(top)), "out")
       case Obj(out) => Ok(Obj(Put(OutEnsured(top), "out", Obj(ApplyOverrides(out, ov)))))
       case _ => if AnyTruthy(ov) then Err(WrongType) else Ok(Obj(OutEnsured(top))))
    case _ => Err(WrongType)
  }

  /** One more override: assigned on top of the earlier ones when it is true. */
  lemma ApplyOverridesStep(out: Entries<string, Json>, ov: Overrides, i: nat)
    requires i < |ov|
    ensures ApplyOverrides(out, ov[..i + 1]) ==
              if Truthy(ov[i].1) then Put(ApplyOverrides(out, ov[..i]), ov[i].0, ov[i].1)
              else ApplyOverrides(out, ov[..i])
  {
    assert ov[..i + 1][..i] == ov[..i];
  }

  /** `overwrite_out_config`, step by step as the source runs it. */
  method OverwriteOutConfig(config: Json, ov: Overrides) returns (r: Result<Json>)
    ensures r == MergeOut(config, ov)
  {
    if !config.Obj? {
      return Err(WrongType);
    }
    var top := config.entries;
    if !Truthy(Lookup(config, "out")) {
      top := Put(top, "out", Obj([]));
    }
    assert top == OutEnsured(config.entries);
    var out := Lookup(Obj(top), "out");
    ghost var out0 := out;
    var i := 0;
    while i < |ov|
      invariant 0 <= i <= |ov|
      invariant out0.Obj? ==> out.Obj? && out.entries == ApplyOverrides(out0.entries, ov[..i])
      invariant !out0.Obj? ==> out == out0 && forall j :: 0 <= j < i ==> !Truthy(ov[j].1)
    {
      var (key, value) := ov[i];
      if out0.Obj? {
        ApplyOverridesStep(out0.entries, ov, i);
      }
      if Truthy(value) {
        if !out.Obj? {
          assert Truthy(ov[i].1);
          assert MergeOut(config, ov) == Err(WrongType);
          return Err(WrongType);
        }
        out := Obj(Put(out.entries, key, value));
      }
      i := i + 1;
    }
    assert ov[..|ov|] == ov;
    assert config == Obj(config.entries);
    if out.Obj? {
      assert OutBefore(config.entries) == out0.entries;
      MergeOutValue(config.entries, ov);
      top := Put(top, "out", out);
    } else {
      assert !AnyTruthy(ov);
      assert MergeOut(config, ov) == Ok(Obj(top));
    }
    return Ok(Obj(top));
  }

  // ---------------------------------------------------------------------
  // Properties of the unwrap step
  // ---------------------------------------------------------------------

  /** A document whose only key is a true `config` resolves to that value. */
  lemma UnwrapOnlyConfig(v: Json)
    requires Truthy(v)
    ensures Unwrap(Obj([("config", v)])) == Ok(v)
  {
    assert Get([("config", v)], "config") == Some(v);
  }

  /** A true `config` beside other keys fails, naming exactly those other keys in key order. */
  lemma {:induction false} UnwrapSiblings(top: Entries<string, Json>)
    requires DistinctKeys(top)
    requires Truthy(Lookup(Obj(top), "config")) && |top| > 1
    ensures Unwrap(Obj(top)).Err?
    ensures Unwrap(Obj(top)).error.UnsupportedKeys?
    ensures var ks := Unwrap(Obj(top)).error.keys;
              && (forall k :: k in ks <==> k in Keys(top) && k != "config")
              && exists i :: 0 <= i < |top| && top[i].0 == "config" && ks == Keys(top)[..i] + Keys(top)[i + 1..]
  {
    var ks := Keys(top);
    assert "config" in ks;
    var i :| 0 <= i < |ks| && ks[i] == "config";
    WithoutDistinct(ks, i);
  }

  /** Removing a key that occurs once cuts out just that position. */
  lemma {:induction false} WithoutDistinct(ks: seq<string>, i: nat)
    requires i < |ks| && forall a, b :: 0 <= a < b < |ks| ==> ks[a] != ks[b]
    ensures Without(ks, ks[i]) == ks[..i] + ks[i + 1..]
  {
    if i == 0 {
      assert ks[0] !in ks[1..];
      WithoutAbsent(ks[1..], ks[0]);
    } else {
      assert ks[1..][i - 1] == ks[i];
      WithoutDistinct(ks[1..], i - 1);
      assert ks[1..][..i - 1] == ks[1..i];
      assert ks[1..][i..] == ks[i + 1..];
      assert [ks[0]] + (ks[1..i] + ks[i + 1..]) == ks[..i] + ks[i + 1..];
    }
  }

  lemma {:induction false} WithoutAbsent(ks: seq<string>, x: string)
    requires x !in ks
    ensures Without(ks, x) == ks
  {
    if ks != [] {
      assert ks[0] != x && x !in ks[1..];
      WithoutAbsent(ks[1..], x);
    }
  }

  /** A Hash without a true `config` key passes through unchanged. */
  lemma UnwrapUnwrapped(top: Entries<string, Json>)
    requires !Truthy(Lookup(Obj(top), "config"))
    ensures Unwrap(Obj(top)) == Ok(Obj(top))
  {
  }

  // ---------------------------------------------------------------------
  // Properties of the override merge
  // ---------------------------------------------------------------------

  /** After the overrides, a key holds its last true override, or else what it held before. */
  lemma {:induction false} ApplyOverridesGet(out: Entries<string, Json>, ov: Overrides, k: string)
    ensures Get(ApplyOverrides(out, ov), k) ==
              match LastTruthy(ov, k)
              case Some(v) => Some(v)
              case None => Get(out, k)
  {
    if ov != [] {
      var prefix := ov[..|ov| - 1];
      var last := ov[|ov| - 1];
      ApplyOverridesGet(out, prefix, k);
      if Truthy(last.1) && last.0 != k {
        PutOther(ApplyOverrides(out, prefix), last.0, last.1, k);
      }
    }
  }

  /** The overrides keep the `out` keys distinct. */
  lemma {:induction false} ApplyOverridesDistinct(out: Entries<string, Json>, ov: Overrides)
    requires DistinctKeys(out)
    ensures DistinctKeys(ApplyOverrides(out, ov))
  {
    if ov != [] {
      var last := ov[|ov| - 1];
      ApplyOverridesDistinct(out, ov[..|ov| - 1]);
      if Truthy(last.1) {
        PutDistinct(ApplyOverrides(out, ov[..|ov| - 1]), last.0, last.1);
      }
    }
  }

  /** The `out` section a merge starts from: the existing Hash, or `{}` for a false or missing one. */
  function OutBefore(top: Entries<string, Json>): Entries<string, Json>
  {
    match Lookup(Obj(top), "out")
    case Obj(o) => o
    case _ => []
  }

  /**
   * The merge on a Hash whose `out` is a Hash, nil, false or missing: it
   * succeeds, `out` exists afterwards and holds every true override, other
   * `out` keys keep their value (or stay absent), and every other top-level
   * key is untouched.
   */
  lemma MergeOutSpec(top: Entries<string, Json>, ov: Overrides)
    requires var o := Lookup(Obj(top), "out"); o.Obj? || !Truthy(o)
    ensures MergeOut(Obj(top), ov).Ok?
    ensures var merged := MergeOut(Obj(top), ov).value;
      && merged.Obj?
      && Lookup(merged, "out") == Obj(ApplyOverrides(OutBefore(top), ov))
      && (forall k :: k != "out" ==> Get(merged.entries, k) == Get(top, k))
      && Keys(merged.entries) == if "out" in Keys(top) then Keys(top) else Keys(top) + ["out"]
  {
    var top' := OutEnsured(top);
    var out' := ApplyOverrides(OutBefore(top), ov);
    MergeOutValue(top, ov);
    OutEnsuredKeys(top);
    PutKeys(top', "out", Obj(out'));
    forall k | k != "out" ensures Get(Put(top', "out", Obj(out')), k) == Get(top, k) {
      PutOther(top', "out", Obj(out'), k);
      PutOther(top, "out", Obj([]), k);
    }
  }

  /** On a Hash whose `out` is a Hash or false, the merge assigns the overridden `out` into the ensured document. */
  lemma MergeOutValue(top: Entries<string, Json>, ov: Overrides)
    requires var o := Lookup(Obj(top), "out"); o.Obj? || !Truthy(o)
    ensures MergeOut(Obj(top), ov) ==
              Ok(Obj(Put(OutEnsured(top), "out", Obj(ApplyOverrides(OutBefore(top), ov)))))
  {
    if Truthy(Lookup(Obj(top), "out")) {
      assert OutEnsured(top) == top;
      assert Lookup(Obj(top), "out") == Obj(OutBefore(top));
    } else {
      var top' := Put(top, "out", Obj([]));
      assert OutEnsured(top) == top';
      assert OutBefore(top) == [];
      assert Get(top', "out") == Some(Obj([]));
      assert Lookup(Obj(top'), "out") == Obj([]);
    }
  }

  /** `config['out'] ||= {}` keeps the key order, adding `out` at the end when it was missing. */
  lemma OutEnsuredKeys(top: Entries<string, Json>)
    ensures Keys(OutEnsured(top)) == if "out" in Keys(top) then Keys(top) else Keys(top) + ["out"]
    ensures "out" in Keys(OutEnsured(top))
  {
    PutKeys(top, "out", Obj([]));
  }

  /** Every `out` key of the merged document: its last true override, else its earlier value. */
  lemma MergeOutKey(top: Entries<string, Json>, ov: Overrides, k: string)
    requires var o := Lookup(Obj(top), "out"); o.Obj? || !Truthy(o)
    ensures MergeOut(Obj(top), ov).Ok?
    ensures Get(Lookup(MergeOut(Obj(top), ov).value, "out").entries, k) ==
              match LastTruthy(ov, k)
              case Some(v) => Some(v)
              case None => Get(OutBefore(top), k)
  {
    MergeOutSpec(top, ov);
    ApplyOverridesGet(OutBefore(top), ov, k);
  }

  /** With no true override and an existing `out` Hash, the merge changes nothing. */
  lemma {:induction false} MergeOutNoOverrides(top: Entries<string, Json>, ov: Overrides)
    requires Lookup(Obj(top), "out").Obj?
    requires !AnyTruthy(ov)
    ensures MergeOut(Obj(top), ov) == Ok(Obj(top))
  {
    NoTruthyApply(OutBefore(top), ov);
    assert "out" in Keys(top);
    PutExisting(top, "out", Lookup(Obj(top), "out"));
  }

  lemma {:induction false} NoTruthyApply(out: Entries<string, Json>, ov: Overrides)
    requires !AnyTruthy(ov)
    ensures ApplyOverrides(out, ov) == out
  {
    if ov != [] {
      assert !Truthy(ov[|ov| - 1].1);
      var prefix := ov[..|ov| - 1];
      assert !AnyTruthy(prefix) by {
        forall i | 0 <= i < |prefix| ensures !Truthy(prefix[i].1) {
          assert prefix[i] == ov[i];
        }
      }
      NoTruthyApply(out, prefix);
    }
  }

  /** Without an `out` section, even an all-nil override set adds `out: {}` at the end. */
  lemma MergeOutCreatesOut(top: Entries<string, Json>, ov: Overrides)
    requires "out" !in Keys(top)
    requires !AnyTruthy(ov)
    ensures MergeOut(Obj(top), ov) == Ok(Obj(top + [("out", Obj([]))]))
  {
    NoTruthyApply([], ov);
    PutAppends(top, "out", Obj([]));
    PutExisting(top + [("out", Obj([]))], "out", Obj([]));
  }

  lemma {:induction false} PutAppends(e: Entries<string, Json>, k: string, v: Json)
    requires k !in Keys(e)
    ensures Put(e, k, v) == e + [(k, v)]
  {
    if e != [] {
      KeysCons(e[0], e[1..]);
      assert [e[0]] + e[1..] == e;
      PutAppends(e[1..], k, v);
      assert [e[0]] + (e[1..] + [(k, v)]) == e + [(k, v)];
    }
  }

  /** An empty-string override is true in Ruby, so it replaces the value already there. */
  lemma EmptyStringOverrides()
    ensures MergeOut(Obj([("out", Obj([("database", Str("a"))]))]), [("database", Str(""))])
            == Ok(Obj([("out", Obj([("database", Str(""))]))]))
  {
    var out := [("database", Str("a"))];
    var top := [("out", Obj(out))];
    var ov := [("database", Str(""))];
    assert Get(top, "out") == Some(Obj(out));
    assert OutEnsured(top) == top && OutBefore(top) == out;
    MergeOutValue(top, ov);
    assert ov[..0] == [];
    assert ApplyOverrides(out, ov) == Put(out, "database", Str(""));
    assert Put(out, "database", Str("")) == [("database", Str(""))];
    assert Put(top, "out", Obj([("database", Str(""))])) == [("out", Obj([("database", Str(""))]))];
  }

  /** A nil override keeps the value already there. */
  lemma NilOverrideKeeps()
    ensures MergeOut(Obj([("out", Obj([("database", Str("a"))]))]), [("database", Null)])
            == Ok(Obj([("out", Obj([("database", Str("a"))]))]))
  {
    MergeOutNoOverrides([("out", Obj([("database", Str("a"))]))], [("database", Null)]);
  }
}

=== FILE: guess_command.dfy ===
/**
 * `connector_guess`: resolve a partial configuration (from a file, or from
 * the obsolete S3 flags), hand it to the remote guess, and persist the
 * guessed configuration with a backup of any earlier output.
 */
module GuessCommand {
  import opened Wrappers
  import opened OrderedMap
  import opened JsonDoc
  import opened ConfigResolver
  import opened OutputWriter
  import opened S3Path

  /** The output path used when `-o` is not given. */
  const DefaultOut: string := "td-bulkload.yml"

  /**
   * The option values after parsing. `--type` takes an optional argument, so
   * `--type` alone leaves it nil; `out` always holds a string.
   */
  datatype GuessOptions = GuessOptions(
    typ: Option<string>, accessId: Option<string>, accessSecret: Option<string>,
    source: Option<string>, out: string)

  /** The values before any option is seen. */
  function DefaultOptions(): GuessOptions
  {
    GuessOptions(Some("s3"), None, None, None, DefaultOut)
  }

  /** What `URI.parse` yields: the host, and the path (nil for an opaque URI). */
  datatype Uri = Uri(host: Option<string>, path: Option<string>)

  /**
   * The `required` chain of the legacy path and its rescue: the first
   * missing option, in the order access id, secret, source, out, is named,
   * unless none of the three source settings was given at all.
   */
  function LegacyCheck(id: Option<string>, secret: Option<string>, source: Option<string>, out: Option<string>): (r: Result<()>)
    ensures r.Ok? <==> id.Some? && secret.Some? && source.Some? && out.Some?
    ensures id.None? && secret.None? && source.None? ==> r == Err(ConfigPathRequired)
    ensures id.None? && (secret.Some? || source.Some?) ==> r == Err(MissingOption("--access-id"))
    ensures id.Some? && secret.None? ==> r == Err(MissingOption("--access-secret"))
    ensures id.Some? && secret.Some? && source.None? ==> r == Err(MissingOption("--source"))
    ensures id.Some? && secret.Some? && source.Some? && out.None? ==> r == Err(MissingOption("--out"))
  {
    var checks := [("--access-id", OptStr(id)), ("--access-secret", OptStr(secret)),
                   ("--source", OptStr(source)), ("--out", OptStr(out))];
    assert checks[0].1 == OptStr(id) && checks[1].1 == OptStr(secret)
      && checks[2].1 == OptStr(source) && checks[3].1 == OptStr(out);
    match RequiredAll(checks)
    case Ok(_) => Ok(())
    case Err(e) =>
      if id.None? && secret.None? && source.None? then Err(ConfigPathRequired) else Err(e)
  }

  /**
   * The configuration the legacy flags describe: the credentials, the
   * source's host as endpoint, and the S3 split of its path.
   */
  function LegacyConfig(opts: GuessOptions, parseUri: string -> Option<Uri>): (r: Result<Json>)
    ensures r.Ok? ==> opts.accessId.Some? && opts.accessSecret.Some? && opts.source.Some?
    ensures LegacyCheck(opts.accessId, opts.accessSecret, opts.source, Some(opts.out)).Err? ==>
              r.Err? && r.error == LegacyCheck(opts.accessId, opts.accessSecret, opts.source, Some(opts.out)).error
    ensures r.Ok? ==> exists uri: Uri ::
      && parseUri(opts.source.value) == Some(uri) && uri.path.Some?
      && SplitS3(uri.path.value).Ok?
      && r.value == Obj([("type", OptStr(opts.typ)),
                         ("access_key_id", Str(opts.accessId.value)),
                         ("secret_access_key", Str(opts.accessSecret.value)),
                         ("endpoint", OptStr(uri.host)),
                         ("bucket", Str(SplitS3(uri.path.value).value.0)),
                         ("path_prefix", Str(SplitS3(uri.path.value).value.1))])
    ensures LegacyCheck(opts.accessId, opts.accessSecret, opts.source, Some(opts.out)).Ok? ==>
      var source := opts.source.value;
      && (parseUri(source).None? ==> r == Err(InvalidUri(source)))
      && (parseUri(source).Some? && parseUri(source).value.path.None? ==> r == Err(WrongType))
      && (parseUri(source).Some? && parseUri(source).value.path.Some? ==>
            (r.Ok? <==> '/' in parseUri(source).value.path.value)
            && (r.Err? ==> r.error == WrongType))
  {
    match LegacyCheck(opts.accessId, opts.accessSecret, opts.source, Some(opts.out))
    case Err(e) => Err(e)
    case Ok(_) =>
      var source := opts.source.value;
      match parseUri(source)
      case None => Err(InvalidUri(source))
      case Some(uri) =>
        match uri.path
        case None => Err(WrongType)
        case Some(path) =>
          match SplitS3(path)
          case Err(e) => Err(e)
          case Ok((bucket, prefix)) =>
            Ok(Obj([("type", OptStr(opts.typ)),
                    ("access_key_id", Str(opts.accessId.value)),
                    ("secret_access_key", Str(opts.accessSecret.value)),
                    ("endpoint", OptStr(uri.host)),
                    ("bucket", Str(bucket)),
                    ("path_prefix", Str(prefix))]))
  }

  /**
   * The configuration sent to the remote guess and the output path. With a
   * configuration file the document comes from it; `out ||= config_file`
   * never fires, since `out` already holds a string.
   */
  function GuessRequest(configFile: Option<string>, opts: GuessOptions, files: map<string, string>,
                        parse: string -> ParseOutcome, parseUri: string -> Option<Uri>): (r: Result<(Json, string)>)
    ensures r.Ok? ==> r.value.1 == opts.out
    ensures configFile.Some? ==>
      (r.Ok? <==> PrepareConfig(files, configFile, parse).Ok?)
      && (r.Ok? ==> r.value.0 == PrepareConfig(files, configFile, parse).value)
      && (r.Err? ==> r.error == PrepareConfig(files, configFile, parse).error)
    ensures configFile.None? ==>
      (r.Ok? <==> LegacyConfig(opts, parseUri).Ok?)
      && (r.Ok? ==> r.value.0 == LegacyConfig(opts, parseUri).value)
      && (r.Err? ==> r.error == LegacyConfig(opts, parseUri).error)
  {
    match configFile
    case Some(_) =>
      var config :- PrepareConfig(files, configFile, parse);
      Ok((config, opts.out))
    case None =>
      var config :- LegacyConfig(opts, parseUri);
      Ok((config, opts.out))
  }

  /** The guessed configuration in the format the output path asks for. */
  function Serialize(out: string, guessed: Json, dumpJson: Json -> string, dumpYaml: Json -> string): (text: string)
    ensures EndsWithJson(out) ==> text == dumpJson(guessed)
    ensures !EndsWithJson(out) ==> text == dumpYaml(guessed)
  {
    match OutputFormat(out)
    case JsonFormat => dumpJson(guessed)
    case YamlFormat => dumpYaml(guessed)
  }

  /**
   * `connector_guess` against the local file system. The remote guess
   * (`bulk_load_guess(config: ...)['config']`), the YAML/JSON reader, URI
   * parsing and the two dumpers are parameters. On success the output path
   * is returned; the file system changes only by the backup and the write.
   */
  method ConnectorGuess(fs: FileSystem, configFile: Option<string>, opts: GuessOptions,
                        parse: string -> ParseOutcome, parseUri: string -> Option<Uri>,
                        remoteGuess: Json -> Json, dumpJson: Json -> string, dumpYaml: Json -> string)
    returns (r: Result<string>)
    modifies fs
    ensures var req := GuessRequest(configFile, opts, old(fs.files), parse, parseUri);
      && (req.Err? ==> r == Err(req.error) && fs.files == old(fs.files))
      && (req.Ok? ==>
            var out := req.value.1;
            var written := Persisted(old(fs.files), out, Serialize(out, remoteGuess(req.value.0), dumpJson, dumpYaml));
            && (r.Ok? <==> written.Some?)
            && (r.Ok? ==> r.value == out && fs.files == written.value)
            && (r.Err? ==> r.error == BackupFailed && fs.files == old(fs.files)))
  {
    var req := GuessRequest(configFile, opts, fs.files, parse, parseUri);
    if req.Err? {
      return Err(req.error);
    }
    var (config, out) := req.value;
    var guessed := remoteGuess(config);
    var backup := fs.CreateBackup(out);
    if backup.Err? {
      return Err(backup.error);
    }
    var text := Serialize(out, guessed, dumpJson, dumpYaml);
    fs.Write(out, text);
    return Ok(out);
  }

  // ---------------------------------------------------------------------
  // Properties
  // ---------------------------------------------------------------------

  /** Without a configuration file and with no source settings, the error asks for the file. */
  lemma GuessNeedsSomething(opts: GuessOptions, files: map<string, string>,
                            parse: string -> ParseOutcome, parseUri: string -> Option<Uri>)
    requires opts.accessId.None? && opts.accessSecret.None? && opts.source.None?
    ensures GuessRequest(None, opts, files, parse, parseUri) == Err(ConfigPathRequired)
  {
  }

  /**
   * `connector:guess` with no configuration file and no option at all asks
   * for the configuration file, whatever the file system holds.
   */
  lemma GuessWithoutArguments(files: map<string, string>, parse: string -> ParseOutcome,
                              parseUri: string -> Option<Uri>)
    ensures GuessRequest(None, DefaultOptions(), files, parse, parseUri) == Err(ConfigPathRequired)
  {
    GuessNeedsSomething(DefaultOptions(), files, parse, parseUri);
  }

  /** The legacy path never reports `--out`: the output path always holds a value. */
  lemma LegacyNeverMissingOut(opts: GuessOptions, parseUri: string -> Option<Uri>)
    ensures LegacyConfig(opts, parseUri) != Err(MissingOption("--out"))
  {
  }

  /**
   * A legacy source whose URI has host `h` and path `/b/x/y` yields bucket
   * `b`, prefix `x/y` and endpoint `h`.
   */
  lemma LegacyS3Example(opts: GuessOptions, parseUri: string -> Option<Uri>)
    requires opts.accessId.Some? && opts.accessSecret.Some? && opts.source.Some?
    requires parseUri(opts.source.value) == Some(Uri(Some("h"), Some("/b/x/y")))
    ensures LegacyConfig(opts, parseUri) ==
      Ok(Obj([("type", OptStr(opts.typ)),
              ("access_key_id", Str(opts.accessId.value)),
              ("secret_access_key", Str(opts.accessSecret.value)),
              ("endpoint", Str("h")),
              ("bucket", Str("b")),
              ("path_prefix", Str("x/y"))]))
  {
    SplitS3Example();
  }
}

=== FILE: issue_command.dfy ===
/**
 * `connector_issue` up to the remote call: choose database, table and
 * configuration file from the arguments, merge the options into the
 * configuration's `out` section, and require both `out.database` and
 * `out.table` before the job may be issued.
 */
module IssueCommand {
  import opened Wrappers
  import opened OrderedMap
  import opened JsonDoc
  import opened ConfigResolver

  /** What `op.cmd_parse` returns: one String, or an Array of positional arguments. */
  datatype CmdArgs = OneArg(arg: string) | ArgList(args: seq<string>)

  datatype IssueOptions = IssueOptions(
    database: Option<string>, table: Option<string>, timeColumn: Option<string>, autoCreate: bool)

  /** What reaches `bulk_load_issue` (and, first, the auto-create step when asked for). */
  datatype IssueCall = IssueCall(database: Json, table: Json, config: Json, autoCreate: bool)

  /**
   * The argument selection: a single String is the configuration file, with
   * database and table from the options; otherwise the three come in order.
   */
  function SelectArgs(args: CmdArgs, opts: IssueOptions): (sel: (Option<string>, Option<string>, Option<string>))
    ensures args.OneArg? ==> sel == (opts.database, opts.table, Some(args.arg))
    ensures args.ArgList? && |args.args| >= 3 ==>
              sel == (Some(args.args[0]), Some(args.args[1]), Some(args.args[2]))
    ensures args.ArgList? && |args.args| < 3 ==> sel.2.None?
  {
    match args
    case OneArg(path) => (opts.database, opts.table, Some(path))
    case ArgList(a) => (ElementAt(a, 0), ElementAt(a, 1), ElementAt(a, 2))
  }

  /** `'database' => database, 'table' => table, 'time_column' => time_column`. */
  function IssueOverrides(database: Option<string>, table: Option<string>, timeColumn: Option<string>): Overrides
  {
    [("database", OptStr(database)), ("table", OptStr(table)), ("time_column", OptStr(timeColumn))]
  }

  /**
   * Ruby's `[]` with a String key on the value `config['out']` holds: a Hash
   * looks the key up, a String answers the key if it occurs in it and nil
   * otherwise, and every other value raises.
   */
  function Index(v: Json, k: string): (r: Result<Json>)
    ensures v.Obj? ==> r == Ok(Lookup(v, k))
    ensures !v.Obj? && !v.Str? ==> r == Err(WrongType)
  {
    match v
    case Obj(_) => Ok(Lookup(v, k))
    case Str(s) => Ok(if Contains(s, k) then Str(k) else Null)
    case _ => Err(WrongType)
  }

  /** The configuration after the file was read and the options merged into it. */
  function Merged(args: CmdArgs, opts: IssueOptions, files: map<string, string>, parse: string -> ParseOutcome): (r: Result<Json>)
    ensures var prepared := PrepareConfig(files, SelectArgs(args, opts).2, parse);
      && (prepared.Err? ==> r == Err(prepared.error))
      && (r.Ok? ==> prepared.Ok? && r.value.Obj? && Truthy(Lookup(r.value, "out")))
  {
    var (database, table, configFile) := SelectArgs(args, opts);
    var doc :- PrepareConfig(files, configFile, parse);
    MergeOut(doc, IssueOverrides(database, table, opts.timeColumn))
  }

  /**
   * The checks on the merged configuration: `required('database', ...)` is
   * checked before `required('table', ...)`, both on `config['out']`.
   */
  function IssueWith(config: Json, autoCreate: bool): (r: Result<IssueCall>)
    ensures r.Ok? ==> r.value.database != Null && r.value.table != Null
    ensures r.Ok? ==>
      && r.value.config == config
      && Index(Lookup(config, "out"), "database") == Ok(r.value.database)
      && Index(Lookup(config, "out"), "table") == Ok(r.value.table)
    ensures r.Ok? ==> r.value.autoCreate == autoCreate
  {
    var out := Lookup(config, "out");
    var database :- Index(out, "database");
    var database :- Required("database", database);
    var table :- Index(out, "table");
    var table :- Required("table", table);
    Ok(IssueCall(database, table, config, autoCreate))
  }

  /** The request `connector_issue` sends, or the error that stops it first. */
  function Issue(args: CmdArgs, opts: IssueOptions, files: map<string, string>, parse: string -> ParseOutcome): (r: Result<IssueCall>)
    ensures Merged(args, opts, files, parse).Err? ==> r == Err(Merged(args, opts, files, parse).error)
    ensures Merged(args, opts, files, parse).Ok? ==> r == IssueWith(Merged(args, opts, files, parse).value, opts.autoCreate)
  {
    var config :- Merged(args, opts, files, parse);
    IssueWith(config, opts.autoCreate)
  }

  // ---------------------------------------------------------------------
  // Properties
  // ---------------------------------------------------------------------

  /**
   * Once the merged `out` is a Hash, the job is issued exactly when both
   * `out.database` and `out.table` are non-nil; otherwise the error names
   * `database` first, then `table`.
   */
  lemma IssueRequires(config: Json, autoCreate: bool)
    requires Lookup(config, "out").Obj?
    ensures var out := Lookup(config, "out");
      var r := IssueWith(config, autoCreate);
      && (r.Ok? <==> Lookup(out, "database") != Null && Lookup(out, "table") != Null)
      && (Lookup(out, "database") == Null ==> r == Err(MissingOption("database")))
      && (Lookup(out, "database") != Null && Lookup(out, "table") == Null ==> r == Err(MissingOption("table")))
  {
  }

  /** Which override for database and table is the last true one: the option's own value, if given. */
  lemma IssueOverridesLast(database: Option<string>, table: Option<string>, timeColumn: Option<string>)
    ensures LastTruthy(IssueOverrides(database, table, timeColumn), "database") ==
              if database.Some? then Some(Str(database.value)) else None
    ensures LastTruthy(IssueOverrides(database, table, timeColumn), "table") ==
              if table.Some? then Some(Str(table.value)) else None
  {
    var ov := IssueOverrides(database, table, timeColumn);
    assert "table" != "database" && "time_column" != "database" && "time_column" != "table" by {
      assert "table"[0] != "database"[0] && "time_column"[1] != "database"[1] && "time_column"[1] != "table"[1];
    }
    var two, one := ov[..2], ov[..1];
    assert two[..1] == one && one[..0] == [];
    assert one[0] == ("database", OptStr(database)) && two[1] == ("table", OptStr(table));
    assert LastTruthy(ov, "database") == LastTruthy(two, "database") == LastTruthy(one, "database");
    assert LastTruthy(ov, "table") == LastTruthy(two, "table");
    assert LastTruthy(one, "table") == LastTruthy([], "table");
    assert LastTruthy(one, "database") ==
      if Truthy(OptStr(database)) then Some(OptStr(database)) else LastTruthy(one[..0], "database");
  }

  /** With a readable file, the merged configuration is the file's document merged with the selected options. */
  lemma MergedFromFile(args: CmdArgs, opts: IssueOptions, files: map<string, string>,
                       parse: string -> ParseOutcome, doc: Json)
    requires PrepareConfig(files, SelectArgs(args, opts).2, parse) == Ok(doc)
    ensures var sel := SelectArgs(args, opts);
      Merged(args, opts, files, parse) == MergeOut(doc, IssueOverrides(sel.0, sel.1, opts.timeColumn))
  {
  }

  /** Reading `out.database` and `out.table` from a merged `out` Hash. */
  lemma OutField(top: Entries<string, Json>, ov: Overrides, k: string, v: Json)
    requires var o := Lookup(Obj(top), "out"); o.Obj? || !Truthy(o)
    requires Get(Lookup(MergeOut(Obj(top), ov).value, "out").entries, k) == (if v == Null then None else Some(v))
    ensures MergeOut(Obj(top), ov).Ok?
    ensures Lookup(MergeOut(Obj(top), ov).value, "out").Obj?
    ensures Lookup(Lookup(MergeOut(Obj(top), ov).value, "out"), k) == v
  {
    MergeOutSpec(top, ov);
  }

  /**
   * Database and table given on the command line win over the file: with a
   * readable file whose `out` is a Hash or absent, the job is issued for
   * exactly those names.
   */
  lemma IssueOptionsWin(args: CmdArgs, opts: IssueOptions, files: map<string, string>,
                        parse: string -> ParseOutcome, top: Entries<string, Json>)
    requires var sel := SelectArgs(args, opts); sel.0.Some? && sel.1.Some?
    requires PrepareConfig(files, SelectArgs(args, opts).2, parse) == Ok(Obj(top))
    requires var o := Lookup(Obj(top), "out"); o.Obj? || !Truthy(o)
    ensures var sel := SelectArgs(args, opts);
      && Issue(args, opts, files, parse).Ok?
      && Issue(args, opts, files, parse).value.database == Str(sel.0.value)
      && Issue(args, opts, files, parse).value.table == Str(sel.1.value)
  {
    var sel := SelectArgs(args, opts);
    var ov := IssueOverrides(sel.0, sel.1, opts.timeColumn);
    MergedFromFile(args, opts, files, parse, Obj(top));
    IssueOverridesLast(sel.0, sel.1, opts.timeColumn);
    MergeOutKey(top, ov, "database");
    MergeOutKey(top, ov, "table");
    OutField(top, ov, "database", Str(sel.0.value));
    OutField(top, ov, "table", Str(sel.1.value));
    IssueRequires(Merged(args, opts, files, parse).value, opts.autoCreate);
  }

  /**
   * A configuration file without an `out` section, and no database or
   * table on the command line: the command stops at `required('database')`
   * and nothing is issued.
   */
  lemma IssueWithoutDatabase(path: string, opts: IssueOptions, files: map<string, string>,
                             parse: string -> ParseOutcome, top: Entries<string, Json>)
    requires opts.database.None? && opts.table.None?
    requires PrepareConfig(files, Some(path), parse) == Ok(Obj(top))
    requires "out" !in Keys(top)
    ensures Issue(OneArg(path), opts, files, parse) == Err(MissingOption("database"))
  {
    var ov := IssueOverrides(None, None, opts.timeColumn);
    MergedFromFile(OneArg(path), opts, files, parse, Obj(top));
    IssueOverridesLast(None, None, opts.timeColumn);
    MergeOutKey(top, ov, "database");
    assert Lookup(Obj(top), "out") == Null;
    assert Get(OutBefore(top), "database") == None;
    OutField(top, ov, "database", Null);
    IssueRequires(Merged(OneArg(path), opts, files, parse).value, opts.autoCreate);
  }
}

=== FILE: json.dfy ===
/** The configuration document: the tree a YAML or JSON reader yields. */
module JsonDoc {
  import opened Wrappers
  import opened OrderedMap

  datatype Json =
    | Null
    | Bool(b: bool)
    | Int(i: int)
    | Float(f: real)
    | Str(s: string)
    | Arr(items: seq<Json>)
    | Obj(entries: Entries<string, Json>)

  /** Ruby's truth test: everything but `nil` and `false` is true (so is `""`). */
  predicate Truthy(j: Json)
  {
    j != Null && j != Bool(false)
  }

  /** `doc[k]` on a document read as a Hash: nil when the key is missing. */
  function Lookup(doc: Json, k: string): (v: Json)
    ensures doc.Obj? && k in Keys(doc.entries) ==> Some(v) == Get(doc.entries, k)
    ensures !doc.Obj? || k !in Keys(doc.entries) ==> v == Null
  {
    match doc
    case Obj(entries) =>
      (match Get(entries, k)
       case Some(v) => v
       case None => Null)
    case _ => Null
  }

  /** A Ruby string or nil, as a document value. */
  function OptStr(o: Option<string>): (j: Json)
    ensures Truthy(j) <==> o.Some?
    ensures o.Some? ==> j == Str(o.value)
  {
    match o
    case Some(s) => Str(s)
    case None => Null
  }

  /** `s.include?(t)`. */
  predicate Contains(s: string, t: string)
  {
    |t| <= |s| && (s[..|t|] == t || Contains(s[1..], t))
  }
}

=== FILE: listing.dfy ===
/**
 * The two table commands that only reshape what the service returns:
 * `connector_list` (sessions sorted by name, projected onto fixed columns)
 * and `connector_history` (one row per job run, with its duration).
 */
module Listing {
  import opened Wrappers
  import opened OrderedMap
  import opened JsonDoc
  import opened Sorting

  // ---------------------------------------------------------------------
  // connector:list
  // ---------------------------------------------------------------------

  /** One session as the service lists it: a Hash. */
  type Session = Entries<string, Json>

  /** The session keys shown, in column order. */
  const SessionKeys: seq<string> := ["name", "cron", "timezone", "delay", "database", "table", "config"]

  function Upcase(c: char): char
  {
    if 'a' <= c <= 'z' then (c as int - 32) as char else c
  }

  function Downcase(c: char): char
  {
    if 'A' <= c <= 'Z' then (c as int + 32) as char else c
  }

  function DowncaseAll(s: string): (r: string)
    ensures |r| == |s|
  {
    if s == [] then [] else [Downcase(s[0])] + DowncaseAll(s[1..])
  }

  /** `String#capitalize` on ASCII text. */
  function Capitalize(s: string): (r: string)
    ensures |r| == |s|
  {
    if s == [] then [] else [Upcase(s[0])] + DowncaseAll(s[1..])
  }

  /** `keys.map { |e| e.capitalize.to_sym }`. */
  function ListFields(): (fields: seq<string>)
    ensures |fields| == |SessionKeys|
  {
    seq(|SessionKeys|, i requires 0 <= i < |SessionKeys| => Capitalize(SessionKeys[i]))
  }

  /** A lower-case word is capitalised by upcasing its first letter. */
  lemma CapitalizeLower(s: string)
    requires s != [] && forall i :: 0 <= i < |s| ==> 'a' <= s[i] <= 'z'
    ensures Capitalize(s) == [Upcase(s[0])] + s[1..]
  {
    DowncaseLower(s[1..]);
  }

  lemma {:induction false} DowncaseLower(s: string)
    requires forall i :: 0 <= i < |s| ==> 'a' <= s[i] <= 'z'
    ensures DowncaseAll(s) == s
  {
    if s != [] {
      DowncaseLower(s[1..]);
    }
  }

  /** The column headers of the session list. */
  lemma ListFieldsNamed()
    ensures var fields := ListFields();
      && fields[0] == "Name" && fields[1] == "Cron" && fields[2] == "Timezone" && fields[3] == "Delay"
      && fields[4] == "Database" && fields[5] == "Table" && fields[6] == "Config"
  {
    ScheduleFieldsNamed();
    TargetFieldsNamed();
  }

  lemma ScheduleFieldsNamed()
    ensures var fields := ListFields();
      fields[0] == "Name" && fields[1] == "Cron" && fields[2] == "Timezone" && fields[3] == "Delay"
  {
    CapitalizeKey(0, "Name");
    CapitalizeKey(1, "Cron");
    CapitalizeKey(2, "Timezone");
    CapitalizeKey(3, "Delay");
  }

  lemma TargetFieldsNamed()
    ensures var fields := ListFields();
      fields[4] == "Database" && fields[5] == "Table" && fields[6] == "Config"
  {
    CapitalizeKey(4, "Database");
    CapitalizeKey(5, "Table");
    CapitalizeKey(6, "Config");
  }

  lemma CapitalizeKey(i: nat, upper: string)
    requires i < |SessionKeys|
    requires |upper| == |SessionKeys[i]| && upper[1..] == SessionKeys[i][1..]
    requires upper[0] == Upcase(SessionKeys[i][0])
    ensures ListFields()[i] == upper
  {
    CapitalizeLower(SessionKeys[i]);
  }

  /** Ruby's `String#<=>` as "not after": code point by code point, a proper prefix first. */
  predicate LexLe(a: string, b: string)
  {
    if a == [] then true
    else if b == [] then false
    else if a[0] != b[0] then a[0] < b[0]
    else LexLe(a[1..], b[1..])
  }

  lemma {:induction false} LexLeTotal(a: string, b: string)
    ensures LexLe(a, b) || LexLe(b, a)
  {
    if a != [] && b != [] && a[0] == b[0] {
      LexLeTotal(a[1..], b[1..]);
    }
  }

  lemma {:induction false} LexLeTransitive(a: string, b: string, c: string)
    requires LexLe(a, b) && LexLe(b, c)
    ensures LexLe(a, c)
  {
    if a != [] && b != [] && c != [] && a[0] == b[0] && b[0] == c[0] {
      LexLeTransitive(a[1..], b[1..], c[1..]);
    }
  }

  /** `e['name']` of a session whose name is a string. */
  function NameOf(e: Session): string
  {
    match Lookup(Obj(e), "name")
    case Str(s) => s
    case _ => ""
  }

  function NameLe(): (Session, Session) -> bool
  {
    (a: Session, b: Session) => LexLe(NameOf(a), NameOf(b))
  }

  lemma NameLeIsPreorder()
    ensures TotalPreorder(NameLe())
  {
    forall a: Session, b: Session ensures NameLe()(a, b) || NameLe()(b, a) {
      LexLeTotal(NameOf(a), NameOf(b));
    }
    forall a: Session, b: Session, c: Session | NameLe()(a, b) && NameLe()(b, c) ensures NameLe()(a, c) {
      LexLeTransitive(NameOf(a), NameOf(b), NameOf(c));
    }
  }

  /** `Hash[fields.zip(e.values_at(*keys))]`: missing keys show as nil. */
  function Project(e: Session): (row: Entries<string, Json>)
    ensures Keys(row) == ListFields()
    ensures forall i :: 0 <= i < |SessionKeys| ==> row[i].1 == Lookup(Obj(e), SessionKeys[i])
  {
    var fields := ListFields();
    seq(|SessionKeys|, i requires 0 <= i < |SessionKeys| => (fields[i], Lookup(Obj(e), SessionKeys[i])))
  }

  /** A projected row starts with the session's name. */
  lemma ProjectName(e: Session)
    ensures Project(e)[0] == ("Name", Lookup(Obj(e), "name"))
  {
    ListFieldsNamed();
    assert Keys(Project(e))[0] == "Name";
  }

  /** Every listed session carries a string name, which `sort_by` compares. */
  predicate Named(sessions: seq<Session>)
  {
    forall i :: 0 <= i < |sessions| ==> Lookup(Obj(sessions[i]), "name").Str?
  }

  /** `bulk_load_list().sort_by { |e| e['name'] }`. */
  function SortedSessions(sessions: seq<Session>): (sorted: seq<Session>)
    requires Named(sessions)
    ensures multiset(sorted) == multiset(sessions)
    ensures forall i, j :: 0 <= i < j < |sorted| ==> LexLe(NameOf(sorted[i]), NameOf(sorted[j]))
  {
    NameLeIsPreorder();
    var sorted := SortBy(sessions, NameLe());
    assert forall i, j :: 0 <= i < j < |sorted| ==> NameLe()(sorted[i], sorted[j]);
    sorted
  }

  /** The rows `connector_list` renders. */
  function ListRows(sessions: seq<Session>): (rows: seq<Entries<string, Json>>)
    requires Named(sessions)
    ensures |rows| == |sessions|
    ensures forall i :: 0 <= i < |rows| ==> rows[i] == Project(SortedSessions(sessions)[i])
  {
    var sorted := SortedSessions(sessions);
    assert |sorted| == |multiset(sorted)| == |sessions|;
    seq(|sorted|, i requires 0 <= i < |sorted| => Project(sorted[i]))
  }

  /** Sorting keeps every session named. */
  lemma SortedStaysNamed(sessions: seq<Session>)
    requires Named(sessions)
    ensures Named(SortedSessions(sessions))
  {
    var sorted := SortedSessions(sessions);
    forall i | 0 <= i < |sorted| ensures Lookup(Obj(sorted[i]), "name").Str? {
      assert sorted[i] in multiset(sessions);
      var j :| 0 <= j < |sessions| && sessions[j] == sorted[i];
    }
  }

  /** Each listed row is the projection of one of the listed sessions. */
  lemma ListRowsFromSessions(sessions: seq<Session>, i: nat)
    requires Named(sessions) && i < |sessions|
    ensures exists j :: 0 <= j < |sessions| && ListRows(sessions)[i] == Project(sessions[j])
  {
    var sorted := SortedSessions(sessions);
    assert sorted[i] in multiset(sessions);
    var j :| 0 <= j < |sessions| && sessions[j] == sorted[i];
  }

  /** The listed rows start with their `Name` column, in non-decreasing name order. */
  lemma ListRowsOrdered(sessions: seq<Session>)
    requires Named(sessions)
    ensures var rows := ListRows(sessions);
      && (forall i :: 0 <= i < |rows| ==> rows[i][0] == ("Name", Str(NameOf(SortedSessions(sessions)[i]))))
      && (forall i, j :: 0 <= i < j < |rows| ==> LexLe(rows[i][0].1.s, rows[j][0].1.s))
  {
    var sorted := SortedSessions(sessions);
    var rows := ListRows(sessions);
    SortedStaysNamed(sessions);
    forall i | 0 <= i < |rows| ensures rows[i][0] == ("Name", Str(NameOf(sorted[i]))) {
      ProjectName(sorted[i]);
    }
  }

  // ---------------------------------------------------------------------
  // connector:history
  // ---------------------------------------------------------------------

  /** One job run as `bulk_load_history` returns it; `end_at` is nil while it runs. */
  datatype JobRun = JobRun(
    jobId: Json, status: Json, records: Json, database: Json, table: Json,
    priority: Json, startAt: int, endAt: Option<int>)

  /** `(e['end_at'].nil? ? Time.now.to_i : e['end_at']) - e['start_at']`, with the clock as `now`. */
  function Duration(run: JobRun, now: int): (d: int)
    ensures run.startAt + d == if run.endAt.Some? then run.endAt.value else now
  {
    (if run.endAt.None? then now else run.endAt.value) - run.startAt
  }

  /** A finished run's duration does not depend on the clock; a running one's grows with it. */
  lemma DurationClock(run: JobRun, now: int, later: int)
    requires now <= later
    ensures run.endAt.Some? ==> Duration(run, now) == Duration(run, later)
    ensures run.endAt.None? ==> Duration(run, later) - Duration(run, now) == later - now
  {
  }

  /** Started at 100: still running at 200 gives 100, ended at 150 gives 50. */
  lemma DurationExamples(run: JobRun)
    requires run.startAt == 100
    ensures run.endAt == None ==> Duration(run, 200) == 100
    ensures run.endAt == Some(150) ==> Duration(run, 200) == 50
  {
  }

  /** The history row of one run (the start time stays the epoch second `Time.at` renders). */
  function HistoryRow(run: JobRun, now: int): (row: Entries<string, Json>)
    ensures Keys(row) == ["JobID", "Status", "Records", "Database", "Table", "Priority", "Started", "Duration"]
    ensures row[7] == ("Duration", Int(Duration(run, now)))
  {
    [("JobID", run.jobId), ("Status", run.status), ("Records", run.records),
     ("Database", Lookup(run.database, "name")), ("Table", Lookup(run.table, "name")),
     ("Priority", run.priority), ("Started", Int(run.startAt)), ("Duration", Int(Duration(run, now)))]
  }

  /** `bulk_load_history(name).map { ... }`: one row per run, in the service's order. */
  function HistoryRows(runs: seq<JobRun>, now: int): (rows: seq<Entries<string, Json>>)
    ensures |rows| == |runs|
    ensures forall i :: 0 <= i < |runs| ==> rows[i] == HistoryRow(runs[i], now)
  {
    seq(|runs|, i requires 0 <= i < |runs| => HistoryRow(runs[i], now))
  }
}

=== FILE: obsolete_options.dfy ===
/**
 * `on_with_obsolute_and_overwrite_config_warning`: the option switches named
 * in an option declaration (the words that start with `-`), collected for the
 * deprecation warning, and the warning's "is"/"are".
 */
module ObsoleteOptions {
  import opened Wrappers

  /** The characters Ruby's `split(" ")` treats as separators: space, and tab through carriage return (tab, newline, vertical tab, form feed, carriage return). */
  predicate IsSpace(c: char)
  {
    c == ' ' || '\t' <= c <= '\r'
  }

  predicate NoSpace(w: string)
  {
    forall j :: 0 <= j < |w| ==> !IsSpace(w[j])
  }

  /** The length of the leading run of non-separators: non-empty when s starts with one, and ended by a separator or the end. */
  function WordLength(s: string): (n: nat)
    ensures n <= |s|
    ensures n < |s| ==> IsSpace(s[n])
    ensures s != [] && !IsSpace(s[0]) ==> n > 0
  {
    if s == [] || IsSpace(s[0]) then 0 else 1 + WordLength(s[1..])
  }

  /** The leading word holds no separator. */
  lemma {:induction false} WordNoSpace(s: string)
    ensures NoSpace(s[..WordLength(s)])
  {
    if s != [] && !IsSpace(s[0]) {
      WordNoSpace(s[1..]);
      assert s[..WordLength(s)] == [s[0]] + s[1..][..WordLength(s[1..])];
    }
  }

  /** `s.split(" ")`: the maximal runs of non-separators, left to right. */
  function Words(s: string): (ws: seq<string>)
    ensures |ws| <= |s|
    decreases |s|
  {
    if s == [] then []
    else if IsSpace(s[0]) then Words(s[1..])
    else [s[..WordLength(s)]] + Words(s[WordLength(s)..])
  }

  /** A word followed by a separator or by the end is split off whole, and the rest is split on its own. */
  lemma {:induction false} WordsDecompose(w: string, rest: string)
    requires w != [] && NoSpace(w)
    requires rest == [] || IsSpace(rest[0])
    ensures Words(w + rest) == [w] + Words(rest)
  {
    WordLengthOfWord(w, rest);
    var s := w + rest;
    assert s[..|w|] == w && s[|w|..] == rest;
  }

  lemma {:induction false} WordLengthOfWord(w: string, rest: string)
    requires NoSpace(w)
    requires rest == [] || IsSpace(rest[0])
    ensures WordLength(w + rest) == |w|
  {
    if w == [] {
      assert w + rest == rest;
    } else {
      WordLengthOfWord(w[1..], rest);
      assert (w + rest)[1..] == w[1..] + rest;
    }
  }

  /** Leading separators produce no word. */
  lemma {:induction false} WordsSkipSpace(sp: string, s: string)
    requires forall j :: 0 <= j < |sp| ==> IsSpace(sp[j])
    ensures Words(sp + s) == Words(s)
  {
    if sp == [] {
      assert sp + s == s;
    } else {
      WordsSkipSpace(sp[1..], s);
      assert (sp + s)[1..] == sp[1..] + s;
    }
  }

  /** Every word is non-empty and free of separators. */
  lemma {:induction false} WordShape(s: string, i: nat)
    requires i < |Words(s)|
    ensures Words(s)[i] != [] && NoSpace(Words(s)[i])
    decreases |s|
  {
    if IsSpace(s[0]) {
      WordShape(s[1..], i);
    } else {
      var n := WordLength(s);
      var ws := Words(s);
      assert ws == [s[..n]] + Words(s[n..]);
      if i == 0 {
        WordNoSpace(s);
      } else {
        WordShape(s[n..], i - 1);
        assert ws[i] == Words(s[n..])[i - 1];
      }
    }
  }

  /** `word =~ /\A-/`. */
  predicate IsOptionWord(w: string)
  {
    |w| > 0 && w[0] == '-'
  }

  /** The option words of one list of words, in order. */
  function OptionsIn(ws: seq<string>): (opts: seq<string>)
    ensures |opts| <= |ws|
    ensures forall i :: 0 <= i < |opts| ==> IsOptionWord(opts[i])
  {
    if ws == [] then []
    else OptionsIn(ws[..|ws| - 1]) + (if IsOptionWord(ws[|ws| - 1]) then [ws[|ws| - 1]] else [])
  }

  /** The option words of every argument, argument after argument. */
  function OptionWords(args: seq<string>): (opts: seq<string>)
    ensures forall i :: 0 <= i < |opts| ==> IsOptionWord(opts[i])
  {
    if args == [] then []
    else OptionWords(args[..|args| - 1]) + OptionsIn(Words(args[|args| - 1]))
  }

  /** One more word: kept at the end when it is an option word. */
  lemma OptionsInStep(ws: seq<string>, w: nat)
    requires w < |ws|
    ensures OptionsIn(ws[..w + 1]) == OptionsIn(ws[..w]) + if IsOptionWord(ws[w]) then [ws[w]] else []
  {
    assert ws[..w + 1][..w] == ws[..w];
  }

  /** One more argument: its option words come after the earlier ones. */
  lemma OptionWordsStep(args: seq<string>, a: nat)
    requires a < |args|
    ensures OptionWords(args[..a + 1]) == OptionWords(args[..a]) + OptionsIn(Words(args[a]))
  {
    assert args[..a + 1][..a] == args[..a];
  }

  /** The `each_with_object` accumulation, as the source runs it. */
  method CollectOptionWords(args: seq<string>) returns (options: seq<string>)
    ensures options == OptionWords(args)
  {
    options := [];
    for a := 0 to |args|
      invariant options == OptionWords(args[..a])
    {
      var words := Words(args[a]);
      for w := 0 to |words|
        invariant options == OptionWords(args[..a]) + OptionsIn(words[..w])
      {
        OptionsInStep(words, w);
        if IsOptionWord(words[w]) {
          options := options + [words[w]];
        }
      }
      assert words[..|words|] == words;
      OptionWordsStep(args, a);
    }
    assert args[..|args|] == args;
  }

  /** A word is kept exactly when it is an option word. */
  lemma {:induction false} OptionsInMembers(ws: seq<string>, x: string)
    ensures x in OptionsIn(ws) <==> x in ws && IsOptionWord(x)
  {
    if ws != [] {
      OptionsInMembers(ws[..|ws| - 1], x);
      assert ws == ws[..|ws| - 1] + [ws[|ws| - 1]];
    }
  }

  /** The words of every argument, argument after argument. */
  function AllWords(args: seq<string>): seq<string>
  {
    if args == [] then [] else AllWords(args[..|args| - 1]) + Words(args[|args| - 1])
  }

  lemma {:induction false} OptionsInAppend(a: seq<string>, b: seq<string>)
    ensures OptionsIn(a + b) == OptionsIn(a) + OptionsIn(b)
  {
    if b == [] {
      assert a + b == a;
    } else {
      var n := |b| - 1;
      assert (a + b)[..|a + b| - 1] == a + b[..n];
      OptionsInAppend(a, b[..n]);
    }
  }

  /** The collected options are the option words of all words, in order. */
  lemma {:induction false} OptionWordsFilter(args: seq<string>)
    ensures OptionWords(args) == OptionsIn(AllWords(args))
  {
    if args != [] {
      var n := |args| - 1;
      OptionWordsFilter(args[..n]);
      OptionsInAppend(AllWords(args[..n]), Words(args[n]));
    }
  }

  /** So an option is reported exactly when it is a word of some argument that starts with `-`. */
  lemma OptionWordsMembers(args: seq<string>, x: string)
    ensures x in OptionWords(args) <==> IsOptionWord(x) && x in AllWords(args)
  {
    OptionWordsFilter(args);
    OptionsInMembers(AllWords(args), x);
  }

  /** The text of s without its separators. */
  function Unspaced(s: string): string
  {
    if s == [] then [] else (if IsSpace(s[0]) then [] else [s[0]]) + Unspaced(s[1..])
  }

  lemma {:induction false} UnspacedAppend(a: string, b: string)
    ensures Unspaced(a + b) == Unspaced(a) + Unspaced(b)
  {
    if a != [] {
      var h := if IsSpace(a[0]) then [] else [a[0]];
      assert (a + b)[0] == a[0] && (a + b)[1..] == a[1..] + b;
      assert Unspaced(a + b) == h + Unspaced(a[1..] + b);
      UnspacedAppend(a[1..], b);
      assert Unspaced(a) == h + Unspaced(a[1..]);
    } else {
      assert a + b == b;
    }
  }

  lemma {:induction false} UnspacedWord(w: string)
    requires NoSpace(w)
    ensures Unspaced(w) == w
  {
    if w != [] {
      UnspacedWord(w[1..]);
    }
  }

  /** A text is its first word followed by the rest, as far as non-separators go. */
  lemma UnspacedTake(t: string)
    ensures Unspaced(t) == t[..WordLength(t)] + Unspaced(t[WordLength(t)..])
  {
    var n := WordLength(t);
    assert t == t[..n] + t[n..];
    UnspacedAppend(t[..n], t[n..]);
    WordNoSpace(t);
    UnspacedWord(t[..n]);
  }

  /** Splitting loses nothing but the separators: the words put together are the text without them. */
  lemma {:induction false} WordsCover(s: string)
    ensures Concat(Words(s)) == Unspaced(s)
    decreases |s|
  {
    if s != [] {
      if IsSpace(s[0]) {
        WordsCover(s[1..]);
      } else {
        var n := WordLength(s);
        var ws := Words(s);
        assert ws == [s[..n]] + Words(s[n..]);
        assert ws[0] == s[..n] && ws[1..] == Words(s[n..]);
        UnspacedTake(s);
        WordsCover(s[n..]);
      }
    }
  }

  /** `options.size > 1 ? 'are' : 'is'`. */
  function Verb(options: seq<string>): (v: string)
    ensures v == "are" <==> |options| > 1
    ensures v == "is" <==> |options| <= 1
  {
    if |options| > 1 then "are" else "is"
  }
}

=== FILE: ordered_map.dfy ===
/**
 * An insertion-ordered dictionary, as a Ruby Hash is: a sequence of key/value
 * entries. Lookup finds the first entry with the key; assignment replaces the
 * value of an existing key in place and appends a new key at the end.
 */
module OrderedMap {
  import opened Wrappers

  type Entries<K, V> = seq<(K, V)>

  /** The keys in insertion order (`Hash#keys`). */
  function Keys<K, V>(e: Entries<K, V>): (ks: seq<K>)
  {
    seq(|e|, i requires 0 <= i < |e| => e[i].0)
  }

  /** No key occurs twice, as in every Ruby Hash. */
  ghost predicate DistinctKeys<K, V>(e: Entries<K, V>)
  {
    forall i, j :: 0 <= i < j < |e| ==> e[i].0 != e[j].0
  }

  /** `hash[k]`, with None for a missing key. */
  function Get<K(==), V>(e: Entries<K, V>, k: K): (r: Option<V>)
    ensures r.None? <==> k !in Keys(e)
    ensures r.Some? ==> exists i :: 0 <= i < |e| && e[i] == (k, r.value)
  {
    if e == [] then None
    else if e[0].0 == k then assert Keys(e)[0] == k; Some(e[0].1)
    else
      assert Keys(e) == [e[0].0] + Keys(e[1..]);
      Get(e[1..], k)
  }

  /** The keys of an entry followed by more entries. */
  lemma KeysCons<K, V>(h: (K, V), t: Entries<K, V>)
    ensures Keys([h] + t) == [h.0] + Keys(t)
  {
    var r := [h] + t;
    assert forall i :: 1 <= i < |r| ==> r[i] == t[i - 1];
  }

  /** `hash[k] = v`. */
  function Put<K(==, !new), V>(e: Entries<K, V>, k: K, v: V): (r: Entries<K, V>)
    ensures Get(r, k) == Some(v)
  {
    if e == [] then [(k, v)]
    else if e[0].0 == k then
      var r := [(k, v)] + e[1..];
      assert r[1..] == e[1..];
      r
    else
      var tail := Put(e[1..], k, v);
      var r := [e[0]] + tail;
      assert r[0] == e[0] && r[1..] == tail;
      r
  }

  /** Assignment keeps the key order and appends a key it did not have. */
  lemma {:induction false} PutKeys<K(!new), V>(e: Entries<K, V>, k: K, v: V)
    ensures Keys(Put(e, k, v)) == if k in Keys(e) then Keys(e) else Keys(e) + [k]
  {
    if k in Keys(e) {
      PutKeysPresent(e, k, v);
    } else {
      PutKeysAbsent(e, k, v);
    }
  }

  lemma {:induction false} PutKeysPresent<K(!new), V>(e: Entries<K, V>, k: K, v: V)
    requires k in Keys(e)
    ensures Keys(Put(e, k, v)) == Keys(e)
  {
    KeysCons(e[0], e[1..]);
    assert [e[0]] + e[1..] == e;
    if e[0].0 == k {
      KeysCons((k, v), e[1..]);
    } else {
      PutKeysPresent(e[1..], k, v);
      KeysCons(e[0], Put(e[1..], k, v));
    }
  }

  lemma {:induction false} PutKeysAbsent<K(!new), V>(e: Entries<K, V>, k: K, v: V)
    requires k !in Keys(e)
    ensures Keys(Put(e, k, v)) == Keys(e) + [k]
  {
    if e != [] {
      KeysCons(e[0], e[1..]);
      assert [e[0]] + e[1..] == e;
      PutKeysAbsent(e[1..], k, v);
      KeysCons(e[0], Put(e[1..], k, v));
      assert [e[0].0] + (Keys(e[1..]) + [k]) == ([e[0].0] + Keys(e[1..])) + [k];
    }
  }

  /** Assignment leaves every other key's lookup as it was. */
  lemma {:induction false} PutOther<K(!new), V>(e: Entries<K, V>, k: K, v: V, k': K)
    requires k' != k
    ensures Get(Put(e, k, v), k') == Get(e, k')
  {
    if e != [] && e[0].0 != k {
      var r := Put(e, k, v);
      assert r[0] == e[0] && r[1..] == Put(e[1..], k, v);
      PutOther(e[1..], k, v, k');
    }
  }

  /** With distinct keys, the lookup of a stored key finds the value stored with it. */
  lemma {:induction false} GetAt<K, V>(e: Entries<K, V>, i: nat)
    requires DistinctKeys(e) && i < |e|
    ensures Get(e, e[i].0) == Some(e[i].1)
  {
    if i > 0 {
      assert e[0].0 != e[i].0;
      assert e[1..][i - 1] == e[i];
      GetAt(e[1..], i - 1);
    }
  }

  /** Assigning a key the value it already has changes nothing, position included. */
  lemma {:induction false} PutExisting<K(!new), V>(e: Entries<K, V>, k: K, v: V)
    requires Get(e, k) == Some(v)
    ensures Put(e, k, v) == e
  {
    if e != [] && e[0].0 != k {
      PutExisting(e[1..], k, v);
    }
  }

  /** Assignment keeps the keys distinct. */
  lemma PutDistinct<K(!new), V>(e: Entries<K, V>, k: K, v: V)
    requires DistinctKeys(e)
    ensures DistinctKeys(Put(e, k, v))
  {
    var r := Put(e, k, v);
    PutKeys(e, k, v);
    forall i, j | 0 <= i < j < |r| ensures r[i].0 != r[j].0 {
      assert Keys(r)[i] == r[i].0 && Keys(r)[j] == r[j].0;
      if k !in Keys(e) && j == |e| {
        assert Keys(e)[i] == r[i].0;
      } else {
        assert Keys(e)[i] == r[i].0 && Keys(e)[j] == r[j].0;
      }
    }
  }
}

=== FILE: output_writer.dfy ===
/**
 * Persisting a guessed configuration: `create_bulkload_job_file_backup` moves
 * an existing output file aside to the first free `<out>.<N>` for N in 0..100
 * before the new file is written, and the output format follows the file name.
 */
module OutputWriter {
  import opened Wrappers

  /** The highest backup index tried. */
  const LastBackupIndex: nat := 100

  /** The number a string of decimal digits denotes, most significant digit first. */
  function DigitsValue(s: string): nat
  {
    if s == [] then 0
    else 10 * DigitsValue(s[..|s| - 1]) + (if '0' <= s[|s| - 1] <= '9' then s[|s| - 1] as int - '0' as int else 0)
  }

  /** `idx.to_s` for a natural number. */
  function NatToString(n: nat): (s: string)
    ensures |s| >= 1
    ensures forall i :: 0 <= i < |s| ==> '0' <= s[i] <= '9'
    ensures |s| == 1 || s[0] != '0'
  {
    if n < 10 then [DigitChar(n)] else NatToString(n / 10) + [DigitChar(n % 10)]
  }

  /** The digits `idx.to_s` writes denote idx. */
  lemma {:induction false} NatToStringValue(n: nat)
    ensures DigitsValue(NatToString(n)) == n
  {
    var s := NatToString(n);
    if n >= 10 {
      NatToStringValue(n / 10);
      assert s[..|s| - 1] == NatToString(n / 10);
    }
  }

  function DigitChar(d: nat): (c: char)
    requires d < 10
    ensures '0' <= c <= '9'
    ensures c as int - '0' as int == d
  {
    ['0', '1', '2', '3', '4', '5', '6', '7', '8', '9'][d]
  }

  /** `"#{out}.#{idx}"`. */
  function BackupName(out: string, idx: nat): (name: string)
    ensures |name| > |out| + 1 && name[..|out|] == out && name[|out|] == '.'
  {
    out + "." + NatToString(idx)
  }

  /** A backup name is never the file it backs up. */
  lemma BackupNameIsOther(out: string, idx: nat)
    ensures BackupName(out, idx) != out
  {
    assert |BackupName(out, idx)| > |out|;
  }

  /** Distinct indices give distinct backup names, so `0.upto(100)` probes 101 different files. */
  lemma BackupNameInjective(out: string, i: nat, j: nat)
    requires i != j
    ensures BackupName(out, i) != BackupName(out, j)
  {
    assert BackupName(out, i)[|out| + 1..] == NatToString(i);
    assert BackupName(out, j)[|out| + 1..] == NatToString(j);
    NatToStringValue(i);
    NatToStringValue(j);
  }

  /** The least backup index from `from` to 100 whose name is free, if any. */
  function FreeSlotFrom(files: map<string, string>, out: string, from: nat): (r: Option<nat>)
    requires from <= LastBackupIndex + 1
    ensures r.Some? ==> from <= r.value <= LastBackupIndex && BackupName(out, r.value) !in files
    ensures r.Some? ==> forall j :: from <= j < r.value ==> BackupName(out, j) in files
    ensures r.None? ==> forall j :: from <= j <= LastBackupIndex ==> BackupName(out, j) in files
    decreases LastBackupIndex + 1 - from
  {
    if from > LastBackupIndex then None
    else if BackupName(out, from) !in files then Some(from)
    else FreeSlotFrom(files, out, from + 1)
  }

  /** The index `0.upto(100)` stops at: the least free backup slot. */
  function FreeSlot(files: map<string, string>, out: string): (r: Option<nat>)
    ensures r.Some? ==> r.value <= LastBackupIndex && BackupName(out, r.value) !in files
    ensures r.Some? ==> forall j :: 0 <= j < r.value ==> BackupName(out, j) in files
    ensures r.None? ==> forall j :: 0 <= j <= LastBackupIndex ==> BackupName(out, j) in files
  {
    FreeSlotFrom(files, out, 0)
  }

  /** A free index with every earlier one taken is the slot `0.upto(100)` stops at. */
  lemma FreeSlotLeast(files: map<string, string>, out: string, n: nat)
    requires n <= LastBackupIndex && BackupName(out, n) !in files
    requires forall j :: 0 <= j < n ==> BackupName(out, j) in files
    ensures FreeSlot(files, out) == Some(n)
  {
    FreeSlotFromLeast(files, out, 0, n);
  }

  lemma {:induction false} FreeSlotFromLeast(files: map<string, string>, out: string, from: nat, n: nat)
    requires from <= n <= LastBackupIndex && BackupName(out, n) !in files
    requires forall j :: from <= j < n ==> BackupName(out, j) in files
    ensures FreeSlotFrom(files, out, from) == Some(n)
    decreases n - from
  {
    if from < n {
      assert BackupName(out, from) in files;
      FreeSlotFromLeast(files, out, from + 1, n);
    }
  }

  /**
   * The file system after `create_bulkload_job_file_backup(out)`, or None
   * when it raises: nothing moves if `out` is absent; otherwise `out` moves to
   * its least free backup slot.
   */
  function Rotate(files: map<string, string>, out: string): (r: Option<map<string, string>>)
    ensures r.None? <==> out in files && forall j :: 0 <= j <= LastBackupIndex ==> BackupName(out, j) in files
    ensures r.Some? ==> out !in r.value
    ensures r.Some? ==> forall f :: f in files && f != out ==> f in r.value && r.value[f] == files[f]
  {
    if out !in files then Some(files)
    else
      match FreeSlot(files, out)
      case None => None
      case Some(n) => Some((files - {out})[BackupName(out, n) := files[out]])
  }

  /** A target that does not exist: rotation succeeds and changes nothing. */
  lemma RotateAbsent(files: map<string, string>, out: string)
    requires out !in files
    ensures Rotate(files, out) == Some(files)
  {
  }

  /**
   * A target that exists and has a free slot: the old content ends at
   * `out.N` for the least N in 0..100 not taken before, `out` is gone, and
   * every other file (`out.0` .. `out.N-1` included) is untouched.
   */
  /**
   * `after` is `files` with `out` moved to the backup slot `out.n`: `out` is
   * gone, `out.n` holds its old content, and every other file is untouched.
   */
  ghost predicate MovedTo(files: map<string, string>, out: string, after: map<string, string>, n: nat)
    requires out in files
  {
    out !in after
    && BackupName(out, n) in after && after[BackupName(out, n)] == files[out]
    && forall f :: f != out && f != BackupName(out, n) ==>
         (f in after <==> f in files) && (f in files ==> after[f] == files[f])
  }

  lemma RotateMoves(files: map<string, string>, out: string)
    requires out in files
    requires exists j :: 0 <= j <= LastBackupIndex && BackupName(out, j) !in files
    ensures Rotate(files, out).Some?
    ensures exists n ::
              && 0 <= n <= LastBackupIndex
              && BackupName(out, n) !in files
              && (forall j :: 0 <= j < n ==> BackupName(out, j) in files)
              && MovedTo(files, out, Rotate(files, out).value, n)
  {
    var j :| 0 <= j <= LastBackupIndex && BackupName(out, j) !in files;
    assert FreeSlot(files, out).Some?;
    var n := FreeSlot(files, out).value;
    var b := BackupName(out, n);
    BackupNameIsOther(out, n);
    MoveKeeps(files, out, b);
    assert Rotate(files, out).value == (files - {out})[b := files[out]];
    assert MovedTo(files, out, Rotate(files, out).value, n);
  }

  /** Moving `out` to `b` removes `out`, fills `b` and keeps every other file. */
  lemma MoveKeeps(files: map<string, string>, out: string, b: string)
    requires out in files && b != out
    ensures var after := (files - {out})[b := files[out]];
      out !in after && b in after && after[b] == files[out]
      && forall f :: f != out && f != b ==>
           (f in after <==> f in files) && (f in files ==> after[f] == files[f])
  {
  }

  /** All of `out.0` .. `out.100` taken: rotation fails (and so changes nothing). */
  lemma RotateExhausted(files: map<string, string>, out: string)
    requires out in files
    requires forall j :: 0 <= j <= LastBackupIndex ==> BackupName(out, j) in files
    ensures Rotate(files, out).None?
  {
  }

  /** `/\.json\z/ =~ out`. */
  predicate EndsWithJson(out: string)
  {
    |out| >= 5 && out[|out| - 5..] == ".json"
  }

  datatype Format = JsonFormat | YamlFormat

  /** The serialisation a guessed configuration is written in. */
  function OutputFormat(out: string): (f: Format)
    ensures f == JsonFormat <==> EndsWithJson(out)
  {
    if EndsWithJson(out) then JsonFormat else YamlFormat
  }

  /** Any name ending in `.json` is written as JSON, and the default name as YAML. */
  lemma OutputFormatExamples(stem: string)
    ensures OutputFormat(stem + ".json") == JsonFormat
    ensures OutputFormat("td-bulkload.yml") == YamlFormat
    ensures OutputFormat(stem + ".json.0") == YamlFormat
  {
    assert (stem + ".json")[|stem + ".json"| - 5..] == ".json";
    assert (stem + ".json.0")[|stem + ".json.0"| - 1] == '0';
  }

  /** The files after the guessed configuration was written with a backup, or None if the backup failed. */
  function Persisted(files: map<string, string>, out: string, content: string): (r: Option<map<string, string>>)
    ensures r.None? <==> Rotate(files, out).None?
    ensures r.Some? ==> out in r.value && r.value[out] == content
  {
    match Rotate(files, out)
    case None => None
    case Some(rotated) => Some(rotated[out := content])
  }

  /**
   * Two writes to a path that already holds X, with `out.0` and `out.1` free:
   * X ends at `out.0`, the first write's content at `out.1`, the second's at `out`.
   */
  lemma TwoWrites(files: map<string, string>, out: string, c1: string, c2: string)
    requires out in files
    requires BackupName(out, 0) !in files && BackupName(out, 1) !in files
    ensures Persisted(files, out, c1).Some?
    ensures Persisted(Persisted(files, out, c1).value, out, c2).Some?
    ensures var final := Persisted(Persisted(files, out, c1).value, out, c2).value;
      && final[out] == c2
      && BackupName(out, 0) in final && final[BackupName(out, 0)] == files[out]
      && BackupName(out, 1) in final && final[BackupName(out, 1)] == c1
  {
    var b0, b1 := BackupName(out, 0), BackupName(out, 1);
    assert NatToString(0) == "0" && NatToString(1) == "1";
    assert b0 != b1 by {
      assert b0[|out| + 1] == '0' && b1[|out| + 1] == '1';
    }
    BackupNameIsOther(out, 0);
    BackupNameIsOther(out, 1);
    FreeSlotLeast(files, out, 0);
    var first := Persisted(files, out, c1).value;
    assert first == (files - {out})[b0 := files[out]][out := c1];
    FreeSlotLeast(first, out, 1);
  }

  /** The local file system: path to content. */
  class FileSystem {
    var files: map<string, string>

    constructor (initial: map<string, string>)
      ensures files == initial
    {
      files := initial;
    }

    /** `create_bulkload_job_file_backup(out)`. */
    method CreateBackup(out: string) returns (r: Result<()>)
      modifies this
      ensures r.Ok? <==> Rotate(old(files), out).Some?
      ensures r.Ok? ==> files == Rotate(old(files), out).value
      ensures r.Err? ==> r.error == BackupFailed && files == old(files)
    {
      if out !in files {
        assert Rotate(files, out) == Some(files);
        return Ok(());
      }
      for idx := 0 to LastBackupIndex + 1
        invariant files == old(files)
        invariant forall j :: 0 <= j < idx ==> BackupName(out, j) in files
      {
        var backup := BackupName(out, idx);
        if backup !in files {
          FreeSlotLeast(files, out, idx);
          assert Rotate(files, out) == Some((files - {out})[backup := files[out]]);
          // FileUtils.mv(out, backup)
          files := (files - {out})[backup := files[out]];
          return Ok(());
        }
      }
      assert FreeSlot(files, out).None?;
      return Err(BackupFailed);
    }

    /** `File.open(path, 'w') { |f| f << content }`. */
    method Write(path: string, content: string)
      modifies this
      ensures files == old(files)[path := content]
    {
      files := files[path := content];
    }

    /** The backup step, then the write, as `connector_guess` runs them; nothing is written when the backup fails. */
    method WriteWithBackup(out: string, content: string) returns (r: Result<()>)
      modifies this
      ensures r.Ok? <==> Persisted(old(files), out, content).Some?
      ensures r.Ok? ==> files == Persisted(old(files), out, content).value
      ensures r.Err? ==> r.error == BackupFailed && files == old(files)
    {
      r := CreateBackup(out);
      if r.Ok? {
        Write(out, content);
      }
    }
  }
}

=== FILE: preview.dfy ===
/**
 * Rendering a preview (`connector_preview`): the schema's columns are sorted
 * by their `index`, each becomes a field label `name:type`, and every sample
 * record becomes a row whose element at position idx is stored under the
 * label of the idx-th sorted column.
 */
module Preview {
  import opened Wrappers
  import opened OrderedMap
  import opened JsonDoc
  import opened Sorting

  /** One schema entry of the preview response. */
  datatype Column = Column(name: string, typ: string, index: int)

  /**
   * A rendered row: a fresh Hash from field label to record element. A record
   * longer than the field list stores its extra elements under `fields[idx]`,
   * which Ruby answers with nil: the key None here.
   */
  type Row = Entries<Option<string>, Json>

  datatype Table = Table(fields: seq<string>, rows: seq<Row>)

  function IndexLe(): (Column, Column) -> bool
  {
    (a: Column, b: Column) => a.index <= b.index
  }

  lemma IndexLeIsPreorder()
    ensures TotalPreorder(IndexLe())
  {
  }

  /** `preview['schema'].sort_by { |col| col['index'] }`. */
  function SortedColumns(schema: seq<Column>): (cols: seq<Column>)
    ensures multiset(cols) == multiset(schema)
    ensures forall i, j :: 0 <= i < j < |cols| ==> cols[i].index <= cols[j].index
  {
    IndexLeIsPreorder();
    var cols := SortBy(schema, IndexLe());
    assert forall i, j :: 0 <= i < j < |cols| ==> IndexLe()(cols[i], cols[j]);
    cols
  }

  /** `col['name'] + ':' + col['type']`. */
  function Label(c: Column): string
  {
    c.name + ":" + c.typ
  }

  /** The row of one record: the `each_with_index` assignments, in order. */
  function RowOf(fields: seq<string>, record: seq<Json>): (row: Row)
    ensures record != [] ==> Get(row, ElementAt(fields, |record| - 1)) == Some(record[|record| - 1])
  {
    if record == [] then []
    else Put(RowOf(fields, record[..|record| - 1]), ElementAt(fields, |record| - 1), record[|record| - 1])
  }

  /** The loop building one row: `cols = {}; row.each_with_index { |col, idx| cols[fields[idx]] = col }`. */
  method BuildRow(fields: seq<string>, record: seq<Json>) returns (row: Row)
    ensures row == RowOf(fields, record)
  {
    row := [];
    var idx := 0;
    while idx < |record|
      invariant 0 <= idx <= |record|
      invariant row == RowOf(fields, record[..idx])
    {
      assert record[..idx + 1][..idx] == record[..idx];
      row := Put(row, ElementAt(fields, idx), record[idx]);
      idx := idx + 1;
    }
    assert record[..|record|] == record;
  }

  /** The fields and rows `connector_preview` hands to the table renderer. */
  function PreviewTable(schema: seq<Column>, records: seq<seq<Json>>): (t: Table)
    ensures |t.fields| == |schema| && |t.rows| == |records|
    ensures forall i :: 0 <= i < |t.fields| ==> t.fields[i] == Label(SortedColumns(schema)[i])
    ensures forall r :: 0 <= r < |records| ==> t.rows[r] == RowOf(t.fields, records[r])
  {
    var cols := SortedColumns(schema);
    var fields := seq(|cols|, i requires 0 <= i < |cols| => Label(cols[i]));
    Table(fields, seq(|records|, r requires 0 <= r < |records| => RowOf(fields, records[r])))
  }

  /** The number of record elements that get a real label. */
  function Labelled(fields: seq<string>, record: seq<Json>): nat
  {
    if |record| <= |fields| then |record| else |fields|
  }

  /**
   * A row has a key exactly for the labels of the positions the record
   * reaches, plus the nil key when the record is longer than the field list.
   */
  lemma RowOfKeys(fields: seq<string>, record: seq<Json>, k: Option<string>)
    ensures Get(RowOf(fields, record), k).Some? <==>
              if k.Some? then k.value in fields[..Labelled(fields, record)] else |record| > |fields|
  {
    if k.Some? {
      RowOfLabelKeys(fields, record, k.value);
    } else {
      RowOfNilKey(fields, record);
    }
  }

  /** A label is a key of the row exactly when the record reaches one of its positions. */
  lemma {:induction false} RowOfLabelKeys(fields: seq<string>, record: seq<Json>, f: string)
    ensures Get(RowOf(fields, record), Some(f)).Some? <==> f in fields[..Labelled(fields, record)]
  {
    if record != [] {
      var n := |record| - 1;
      var prev := RowOf(fields, record[..n]);
      var key := ElementAt(fields, n);
      RowOfLabelKeys(fields, record[..n], f);
      if n < |fields| {
        assert fields[..n + 1] == fields[..n] + [fields[n]];
        assert Labelled(fields, record) == n + 1 && Labelled(fields, record[..n]) == n;
      } else {
        assert Labelled(fields, record) == |fields| == Labelled(fields, record[..n]);
      }
      if key != Some(f) {
        PutOther(prev, key, record[n], Some(f));
      }
    }
  }

  /** The nil key is in the row exactly when the record is longer than the field list. */
  lemma {:induction false} RowOfNilKey(fields: seq<string>, record: seq<Json>)
    ensures Get(RowOf(fields, record), None).Some? <==> |record| > |fields|
  {
    if record != [] {
      var n := |record| - 1;
      var prev := RowOf(fields, record[..n]);
      var key := ElementAt(fields, n);
      RowOfNilKey(fields, record[..n]);
      if key != None {
        PutOther(prev, key, record[n], None);
      }
    }
  }

  /**
   * With distinct labels, each element that has a label of its own is found
   * under the label of its position; elements past the labels go to the nil
   * key and disturb none of them.
   */
  lemma {:induction false} RowOfAligned(fields: seq<string>, record: seq<Json>, idx: nat)
    requires forall a, b :: 0 <= a < b < |fields| ==> fields[a] != fields[b]
    requires idx < |record| && idx < |fields|
    ensures Get(RowOf(fields, record), Some(fields[idx])) == Some(record[idx])
  {
    var n := |record| - 1;
    var prev := RowOf(fields, record[..n]);
    var key := ElementAt(fields, n);
    assert RowOf(fields, record) == Put(prev, key, record[n]);
    if idx < n {
      RowOfAligned(fields, record[..n], idx);
      assert record[..n][idx] == record[idx];
      if n < |fields| {
        assert fields[idx] != fields[n];
      }
      PutOther(prev, key, record[n], Some(fields[idx]));
    } else {
      assert key == Some(fields[idx]);
    }
  }

  /**
   * Each record of the preview is rendered against the sorted columns: with
   * distinct labels, element idx sits under `name:type` of the idx-th column
   * by `index`, one row per record.
   */
  lemma PreviewAligned(schema: seq<Column>, records: seq<seq<Json>>, r: nat, idx: nat)
    requires r < |records| && idx < |records[r]| && idx < |schema|
    requires var cols := SortedColumns(schema);
               forall a, b :: 0 <= a < b < |cols| ==> Label(cols[a]) != Label(cols[b])
    ensures var t := PreviewTable(schema, records);
              Get(t.rows[r], Some(Label(SortedColumns(schema)[idx]))) == Some(records[r][idx])
  {
    var t := PreviewTable(schema, records);
    RowOfAligned(t.fields, records[r], idx);
  }

  /** Columns that arrive as c, a, b with indices 2, 0, 1 are sorted to a, b, c. */
  lemma SortExample()
    ensures SortedColumns([Column("c", "string", 2), Column("a", "string", 0), Column("b", "string", 1)])
            == [Column("a", "string", 0), Column("b", "string", 1), Column("c", "string", 2)]
  {
    var a, b, c := Column("a", "string", 0), Column("b", "string", 1), Column("c", "string", 2);
    var le := IndexLe();
    assert [c, a, b][1..] == [a, b];
    SortPairExample();
    assert [b][1..] == [];
    assert Insert(c, [b], le) == [b, c];
    assert Insert(c, [a, b], le) == [a, b, c];
  }

  /** Two columns already in index order stay as they are. */
  lemma SortPairExample()
    ensures SortBy([Column("a", "string", 0), Column("b", "string", 1)], IndexLe())
            == [Column("a", "string", 0), Column("b", "string", 1)]
  {
    var a, b := Column("a", "string", 0), Column("b", "string", 1);
    var le := IndexLe();
    assert [a, b][1..] == [b] && [b][1..] == [];
    assert SortBy([b], le) == [b];
  }

  /**
   * A record is zipped with the sorted columns by position: against the
   * fields a, b, c, the record [v2, v0, v1] renders as a:v2, b:v0, c:v1.
   */
  lemma PositionalZip()
    ensures RowOf(["a:string", "b:string", "c:string"], [Str("v2"), Str("v0"), Str("v1")])
            == [(Some("a:string"), Str("v2")), (Some("b:string"), Str("v0")), (Some("c:string"), Str("v1"))]
  {
    var fields := ["a:string", "b:string", "c:string"];
    var rec := [Str("v2"), Str("v0"), Str("v1")];
    assert rec[..2] == [Str("v2"), Str("v0")];
    PositionalZipPair();
    var ka, kb, kc := Some("a:string"), Some("b:string"), Some("c:string");
    assert ka != kc && kb != kc by {
      assert "a:string"[0] != "c:string"[0] && "b:string"[0] != "c:string"[0];
    }
    var two := [(ka, Str("v2")), (kb, Str("v0"))];
    assert two[1..] == [(kb, Str("v0"))] && two[1..][1..] == [];
    assert Put(two, kc, Str("v1")) == [two[0]] + Put(two[1..], kc, Str("v1"));
    assert Put(two[1..], kc, Str("v1")) == [two[1]] + Put([], kc, Str("v1"));
  }

  /** The first two elements of that record land under a and b. */
  lemma PositionalZipPair()
    ensures RowOf(["a:string", "b:string", "c:string"], [Str("v2"), Str("v0")])
            == [(Some("a:string"), Str("v2")), (Some("b:string"), Str("v0"))]
  {
    var fields := ["a:string", "b:string", "c:string"];
    var rec := [Str("v2"), Str("v0")];
    assert rec[..1] == [Str("v2")] && rec[..1][..0] == [];
    var ka, kb := Some("a:string"), Some("b:string");
    assert ka != kb by {
      assert "a:string"[0] != "b:string"[0];
    }
    assert RowOf(fields, rec[..1]) == [(ka, Str("v2"))];
    assert Put([(ka, Str("v2"))], kb, Str("v0")) == [(ka, Str("v2"))] + Put([], kb, Str("v0"));
  }
}

=== FILE: s3_path.dfy ===
/**
 * The S3 split of the legacy guess path: `uri.path.scan` with the pattern
 * "a slash, then any run of non-slashes" cuts the path into `/`-led
 * segments; the first, without its slash, is the bucket, and the rest,
 * joined and without their first slash, the prefix.
 */
module S3Path {
  import opened Wrappers

  /** The length of the leading run of characters other than `/`: it ends at a slash or at the end. */
  function RunLength(s: string): (n: nat)
    ensures n <= |s|
    ensures n < |s| ==> s[n] == '/'
  {
    if s == [] || s[0] == '/' then 0 else 1 + RunLength(s[1..])
  }

  /** No slash inside the leading run. */
  lemma {:induction false} RunNoSlash(s: string, j: nat)
    requires j < RunLength(s)
    ensures s[j] != '/'
  {
    if j > 0 {
      RunNoSlash(s[1..], j - 1);
    }
  }

  /** Where the segment that starts a path ends: after its first character and the run of non-slashes that follows. */
  function SegmentEnd(path: string): (n: nat)
    requires path != []
    ensures 1 <= n <= |path|
    ensures n < |path| ==> path[n] == '/'
  {
    1 + RunLength(path[1..])
  }

  /** `path.scan` of the segment pattern: every `/` with the run of non-slashes after it, left to right. */
  function Segments(path: string): (segs: seq<string>)
    ensures |segs| <= |path|
    decreases |path|
  {
    if path == [] then []
    else if path[0] != '/' then Segments(path[1..])
    else [path[..SegmentEnd(path)]] + Segments(path[SegmentEnd(path)..])
  }

  /** The scan finds no segment exactly when the path holds no slash. */
  lemma {:induction false} SegmentsEmpty(path: string)
    ensures Segments(path) == [] <==> '/' !in path
    decreases |path|
  {
    if path != [] && path[0] != '/' {
      SegmentsEmpty(path[1..]);
      assert path == [path[0]] + path[1..];
    }
  }

  /** A path that starts with a slash: its first segment, then the segments of the rest. */
  lemma SegmentsHead(path: string)
    requires path != [] && path[0] == '/'
    ensures Segments(path) == [path[..SegmentEnd(path)]] + Segments(path[SegmentEnd(path)..])
  {
  }

  /** Past its first character, the leading segment holds no slash. */
  lemma HeadSegmentShape(path: string)
    requires path != []
    ensures forall j :: 1 <= j < SegmentEnd(path) ==> path[j] != '/'
  {
    forall j | 1 <= j < SegmentEnd(path) ensures path[j] != '/' {
      RunNoSlash(path[1..], j - 1);
    }
  }

  /** Every segment is a slash followed by non-slashes. */
  lemma {:induction false} SegmentShape(path: string, i: nat)
    requires i < |Segments(path)|
    ensures var seg := Segments(path)[i];
      && |seg| >= 1 && seg[0] == '/'
      && forall j :: 1 <= j < |seg| ==> seg[j] != '/'
    decreases |path|
  {
    if path[0] != '/' {
      SegmentShape(path[1..], i);
    } else {
      var n := SegmentEnd(path);
      var segs := Segments(path);
      SegmentsHead(path);
      if i == 0 {
        HeadSegmentShape(path);
      } else {
        SegmentShape(path[n..], i - 1);
        assert segs[i] == Segments(path[n..])[i - 1];
      }
    }
  }

  /** `s.sub(/\//, '')`: the first slash removed, wherever it is. */
  function SubFirstSlash(s: string): (r: string)
    ensures '/' !in s ==> r == s
    ensures s != [] && s[0] == '/' ==> r == s[1..]
    ensures '/' in s ==> |r| == |s| - 1
  {
    if s == [] then []
    else if s[0] == '/' then s[1..]
    else [s[0]] + SubFirstSlash(s[1..])
  }

  /** The slash `sub` removes is the first one: the text before it and after it are kept. */
  lemma {:induction false} SubFirstSlashAt(s: string)
    requires '/' in s
    ensures RunLength(s) < |s|
    ensures SubFirstSlash(s) == s[..RunLength(s)] + s[RunLength(s) + 1..]
  {
    if s[0] != '/' {
      var t := s[1..];
      assert '/' in t;
      SubFirstSlashAt(t);
      var k := RunLength(t);
      assert s[..k + 1] == [s[0]] + t[..k];
      assert s[k + 2..] == t[k + 1..];
    }
  }

  /**
   * Bucket and path prefix of a source path. A path without any `/` has no
   * first segment, and Ruby's `nil.sub` raises.
   */
  function SplitS3(path: string): (r: Result<(string, string)>)
    ensures r.Err? <==> '/' !in path
    ensures r.Err? ==> r.error == WrongType
    ensures r.Ok? ==> '/' !in r.value.0
  {
    SegmentsEmpty(path);
    if Segments(path) == [] then Err(WrongType)
    else
      SegmentShape(path, 0);
      Ok((SubFirstSlash(Segments(path)[0]), SubFirstSlash(Concat(Segments(path)[1..]))))
  }

  /** Characters before the first slash belong to no segment. */
  lemma {:induction false} SegmentsSkip(path: string, k: nat)
    requires k <= |path| && forall j :: 0 <= j < k ==> path[j] != '/'
    ensures Segments(path) == Segments(path[k..])
  {
    if k > 0 {
      assert path[1..][k - 1..] == path[k..];
      SegmentsSkip(path[1..], k - 1);
    }
  }

  /** The segments of a path that starts with a slash put back together give the path. */
  lemma {:induction false} SegmentsCover(path: string)
    requires path == [] || path[0] == '/'
    ensures Concat(Segments(path)) == path
    decreases |path|
  {
    if path != [] {
      var n := SegmentEnd(path);
      SegmentsHead(path);
      SegmentsCover(path[n..]);
      assert path == path[..n] + path[n..];
    }
  }

  /** A path with no slash at all has no bucket: the split fails. */
  lemma SplitS3NoSlash(path: string)
    requires '/' !in path
    ensures SplitS3(path).Err?
  {
    SegmentsSkip(path, |path|);
  }

  /**
   * For a path that starts with a slash, the bucket is the text up to the
   * next slash and the prefix everything after that slash ("" when there is
   * none).
   */
  lemma SplitS3Spec(path: string)
    requires |path| >= 1 && path[0] == '/'
    ensures var n := SegmentEnd(path);
      SplitS3(path) == Ok((path[1..n], if n < |path| then path[n + 1..] else ""))
  {
    var n := SegmentEnd(path);
    var segs := Segments(path);
    SegmentsHead(path);
    assert segs[1..] == Segments(path[n..]);
    SegmentsCover(path[n..]);
    assert SubFirstSlash(path[..n]) == path[1..n];
  }

  /** Leading characters before the first slash do not change the split. */
  lemma SplitS3Skip(path: string, k: nat)
    requires k <= |path| && forall j :: 0 <= j < k ==> path[j] != '/'
    ensures SplitS3(path) == SplitS3(path[k..])
  {
    SegmentsSkip(path, k);
  }

  /** `/b/x/y` splits into bucket `b` and prefix `x/y`. */
  lemma SplitS3Example()
    ensures SplitS3("/b/x/y") == Ok(("b", "x/y"))
  {
    var path := "/b/x/y";
    assert "b/x/y"[1..] == "/x/y";
    assert RunLength("b/x/y") == 1;
    assert path[1..] == "b/x/y";
    assert SegmentEnd(path) == 2;
    SplitS3Spec(path);
    assert SplitS3(path) == Ok((path[1..2], path[3..]));
    assert path[1..2] == "b" && path[3..] == "x/y";
  }

  /** A bucket with nothing after it, with or without a trailing slash, has an empty prefix. */
  lemma SplitS3BucketOnly()
    ensures SplitS3("/b") == Ok(("b", ""))
    ensures SplitS3("/b/") == Ok(("b", ""))
  {
    assert "/b"[1..] == "b" && "b"[1..] == [];
    assert RunLength("/b"[1..]) == 1;
    assert SegmentEnd("/b") == 2;
    SplitS3Spec("/b");
    assert "/b"[1..2] == "b";
    assert "/b/"[1..] == "b/" && "b/"[1..] == "/";
    assert RunLength("/b/"[1..]) == 1;
    assert SegmentEnd("/b/") == 2;
    SplitS3Spec("/b/");
    assert "/b/"[1..2] == "b" && "/b/"[3..] == "";
  }
}

=== FILE: sorting.dfy ===
/**
 * Ordering by a key, as Ruby's `sort_by` does: the result is a permutation of
 * the input in which the keys never decrease. (Ruby leaves the order of equal
 * keys unspecified; this sort happens to keep it.)
 */
module Sorting {

  /** A total preorder: every two elements compare, and comparison chains. */
  ghost predicate TotalPreorder<T(!new)>(le: (T, T) -> bool)
  {
    && (forall a, b :: le(a, b) || le(b, a))
    && (forall a, b, c :: le(a, b) && le(b, c) ==> le(a, c))
  }

  ghost predicate SortedBy<T>(s: seq<T>, le: (T, T) -> bool)
  {
    forall i, j :: 0 <= i < j < |s| ==> le(s[i], s[j])
  }

  /** An element below every element of a sorted sequence can go in front of it. */
  lemma ConsSorted<T>(h: T, t: seq<T>, le: (T, T) -> bool)
    requires SortedBy(t, le)
    requires forall j :: 0 <= j < |t| ==> le(h, t[j])
    ensures SortedBy([h] + t, le)
  {
    var r := [h] + t;
    forall i, j | 0 <= i < j < |r| ensures le(r[i], r[j]) {
      assert r[j] == t[j - 1];
      if i > 0 {
        assert r[i] == t[i - 1];
      }
    }
  }

  /** `x` inserted into a sorted sequence before the first element it does not exceed. */
  function Insert<T(!new)>(x: T, s: seq<T>, le: (T, T) -> bool): (r: seq<T>)
    requires TotalPreorder(le) && SortedBy(s, le)
    ensures SortedBy(r, le)
    ensures multiset(r) == multiset(s) + multiset{x}
  {
    if s == [] then [x]
    else if le(x, s[0]) then
      assert forall j :: 0 <= j < |s| ==> le(x, s[j]) by {
        forall j | 0 <= j < |s| ensures le(x, s[j]) {
          if j > 0 {
            assert le(s[0], s[j]);
          }
        }
      }
      ConsSorted(x, s, le);
      [x] + s
    else
      var tail := Insert(x, s[1..], le);
      assert forall j :: 0 <= j < |tail| ==> le(s[0], tail[j]) by {
        forall j | 0 <= j < |tail| ensures le(s[0], tail[j]) {
          var y := tail[j];
          assert y in multiset(tail);
          if y != x {
            assert y in multiset(s[1..]);
            var k :| 0 <= k < |s[1..]| && s[1..][k] == y;
            assert s[k + 1] == y;
          }
        }
      }
      assert SortedBy(s[1..], le) by {
        forall i, j | 0 <= i < j < |s[1..]| ensures le(s[1..][i], s[1..][j]) {
          assert s[1..][i] == s[i + 1] && s[1..][j] == s[j + 1];
        }
      }
      ConsSorted(s[0], tail, le);
      assert s == [s[0]] + s[1..];
      [s[0]] + tail
  }

  /** `s.sort_by { key }`, for the order `le` on elements that compares keys. */
  function SortBy<T(!new)>(s: seq<T>, le: (T, T) -> bool): (r: seq<T>)
    requires TotalPreorder(le)
    ensures SortedBy(r, le)
    ensures multiset(r) == multiset(s)
    ensures |r| == |s|
  {
    if s == [] then []
    else
      assert s == [s[0]] + s[1..];
      var r := Insert(s[0], SortBy(s[1..], le), le);
      assert |r| == |multiset(r)|;
      r
  }
}

=== FILE: wrappers.dfy ===
/** Option, the command errors, and a failure-compatible Result over them. */
module Wrappers {

  datatype Option<+T> = None | Some(value: T)

  /** Ruby's `Array#[]` with an index: the element, or nil past the end. */
  function ElementAt<T>(s: seq<T>, i: nat): (r: Option<T>)
    ensures r.Some? <==> i < |s|
    ensures i < |s| ==> r.value == s[i]
  {
    if i < |s| then Some(s[i]) else None
  }

  /** `parts.join`: the parts put together, in order. */
  function Concat<T>(parts: seq<seq<T>>): seq<T>
  {
    if parts == [] then [] else parts[0] + Concat(parts[1..])
  }

  /** The ways a connector command stops before (or instead of) reaching the remote service. */
  datatype Error =
    /** `ParameterConfigurationError "<opt> option required"` raised by `required`. */
    | MissingOption(option: string)
    /** The legacy guess path with no access id, secret or source at all. */
    | ConfigPathRequired
    /** `configuration file: <path> not found`. */
    | ConfigNotFound(path: string)
    /** Neither the YAML nor the JSON reading of the file succeeded. */
    | ConfigUnparsable(path: string, reason: string)
    /** A payload wrapped under `config` that also has these sibling keys. */
    | UnsupportedKeys(keys: seq<string>)
    /** `URI.parse` rejected the legacy `--source` value. */
    | InvalidUri(uri: string)
    /** A Ruby TypeError, NoMethodError or IndexError: a value indexed as a Hash that is not one. */
    | WrongType
    /** `backup file creation failed`: every backup slot 0..100 is taken. */
    | BackupFailed

  datatype Result<+T> = Ok(value: T) | Err(error: Error) {
    predicate IsFailure() { Err? }

    function PropagateFailure<U>(): Result<U>
      requires Err?
    {
      Err(error)
    }

    function Extract(): T
      requires Ok?
    {
      value
    }
  }
}
